=== FILE: README.md ===
# PortugueseToolNER core, modelled in Dafny

`PortugueseToolNER` (`pToolNER.py`) prepares Portuguese corpora for named-entity
work. It loads corpora in CoNLL format (one `token<sep>tag` line per token, blank lines
between sentences) or in plain format (one sentence per line). It narrows the tag set
of a CoNLL corpus to chosen categories, masking everything else. It masks the entities a
tagger found in a tagged sentence, and it writes sentences back out in either format.

This project models the string and list logic of that class as pure Dafny functions.
File reads and writes become string parameters and string results. The neural tagger
does not appear; its span tags and tagged strings arrive as parameters. The model is
split into these modules:

- `Seqs`: generic sequence vocabulary. It holds `CollapseRuns`, the run-collapsing
  filter that both `__clearRepeatedMask` and the `re.sub(' +', ' ', …)` space
  normalisation are instances of.
- `PyStrings`: the Python `str` operations the code relies on: `strip`, `split`,
  `join`, `find(...) != -1`, `replace(..., '')` and the space collapsing. `strip` uses
  the `str.isspace` character set.
- `Outcomes`: `Option`, `Result` and the error cases. An error is an exception the
  source raises, including `UnboundLocalError` and `TypeError`.
- `Masking`: `__clearRepeatedMask` and `__maskNamedEntityOnSentence`.
- `Corpus`: the `Store` record of the four instance lists. It also holds the parsing
  parts of `loadCorpusInCoNLLFormat` and `loadCorpusInPlainFormat`, and
  `__getListLabels`.
- `Filtering`: `filterCoNLLCorpusByCategories` and `filterPlainCorpusByCategory`.
- `Output`: `generateOutputFile` as a function that returns the file's text, and the
  round trips between writing and loading.
- `Tagging`: two pure fragments of `sequenceTaggingOnText`. One is the `<B-X>`/`<I-X>`
  label accumulation. The other is the post-mask token filter.
- `Scenarios`: concrete inputs that exhibit edge cases of the code.

Behaviours of the code worth knowing, which the model follows:

- Blank lines inside a plain file are kept as empty sentences (`Scenarios.PlainBlankLineKept`).
- A CoNLL load appends to the lists already held; a plain load replaces `sentencesPlain`.
- `filterCoNLLCorpusByCategories` masks every tag whose category is not acceptable,
  `O` included.
- `filterCoNLLCorpusByCategories` writes the most recent prefixed tag (`newTag`) for an
  acceptable tag. That variable is shared by both loops and never reset, so an
  unprefixed acceptable tag receives a stale value (`Scenarios.StaleTagCarried`). If no
  prefixed tag has been seen yet, the function raises `UnboundLocalError`
  (`Scenarios.UnboundFirstTag`).
- `filterPlainCorpusByCategory` recomputes its result from the original sentence on
  every pass. Only the unacceptable label visited last is removed, and it is removed as
  a substring, not as a whole token.

## Model

| member | source | states |
|---|---|---|
| Masking.ClearRepeatedMask | pToolNER.py:27-39 | the loop builds exactly `CollapseRuns`, the recursive reference that keeps every non-mask token and a mask only where the list so far does not end in one; its properties are the `Seqs.CollapseRuns*` rows |
| Seqs.CollapseRunsSnoc | pToolNER.py:30-37 | one iteration of the loop: a non-mask token is appended; a mask is appended only when the list built so far does not already end in one |
| Seqs.CollapseRunsNoAdjacent | pToolNER.py:27-39 | after the clean-up no two neighbouring tokens are both the mask |
| Seqs.CollapseRunsWithout | pToolNER.py:27-39 | with the masks deleted, input and output are the same sequence: nothing else is lost or reordered |
| Seqs.CollapseRunsMembers | pToolNER.py:27-39 | a value occurs in the output exactly when it occurs in the input |
| Seqs.CollapseRunsKeeps | pToolNER.py:27-39 | a list with no adjacent masks is returned unchanged |
| Seqs.CollapseRunsIdempotent | pToolNER.py:27-39 | running the clean-up twice gives the same list as running it once |
| Masking.MarkEntities | pToolNER.py:44-53 | the marked list is no longer than the words, and every element is the mask or a word that is not an acceptable label |
| Masking.MarkEntitiesPerIndex | pToolNER.py:44-53 | the recursive reading equals the concatenation of what each index `i` of the source loop appends, read off its `i+1 < len` and membership tests |
| Masking.MarkEntitiesNoLabels | pToolNER.py:44-53 | a sentence with no acceptable label is copied word for word |
| Masking.MarkEntitiesMask | pToolNER.py:44-53 | for a sentence without the mask token, a mask is produced exactly when some word after the first is an acceptable label |
| Masking.MarkThenCollapse | pToolNER.py:41-55 | marking then collapsing leaves only masks and non-label words, with no adjacent masks; for a sentence that does not already contain the mask token, a label-free sentence comes back unchanged and a mask appears iff a label follows a word |
| Masking.MarkPerIndexCollapsed | pToolNER.py:44-53 | collapsing the recursive marking equals collapsing the concatenation of what each index of the loop appends, and both agree once the masks are deleted |
| Masking.MaskNamedEntityOnSentence | pToolNER.py:41-55 | the masked list is exactly what the iterations of the source loop over the stripped, space-split words append, index by index, with runs of the mask collapsed; with the masks deleted it holds exactly the words those iterations keep; it also has the properties of MarkThenCollapse |
| PyStrings.StripEnd | pToolNER.py:69 | `rstrip` keeps the longest prefix not ending in whitespace, and everything cut off is whitespace |
| PyStrings.StripStart | pToolNER.py:69 | `lstrip` keeps the longest suffix not starting with whitespace, and everything cut off is whitespace |
| PyStrings.StripSlice | pToolNER.py:69 | `strip` returns one contiguous slice of the text, with only whitespace on either side of it |
| PyStrings.StripTrailingSpace | pToolNER.py:69 | whitespace appended to a trimmed text is exactly what `strip` removes |
| PyStrings.JoinSplit | pToolNER.py:69-71 | joining the pieces of a split with the same separator gives the text back, so a split loses nothing |
| PyStrings.SplitJoin | pToolNER.py:69-71 | for a non-empty separator and a non-empty list of parts, splitting a join gives the parts back when no separator can start inside a part (the empty list joins to `""`, which splits into `[""]`) |
| PyStrings.SplitPiecesAvoid | pToolNER.py:98 | no piece of a split on one character contains that character |
| PyStrings.RemoveAll | pToolNER.py:163 | `replace(label, '')` never lengthens the text and leaves a text without the label unchanged |
| PyStrings.CollapseSpaces | pToolNER.py:163 | `re.sub(' +', ' ', s)` keeps the space-separated words and their order (no two glued together), leaves no two adjacent spaces, keeps the first and last character (so a leading or trailing run becomes one space), keeps every non-space character in order, and keeps a trimmed text trimmed |
| PyStrings.CollapseSpacesFields | pToolNER.py:163 | collapsing runs of spaces leaves the words `[w for w in s.split(' ') if w]` unchanged |
| Corpus.SentenceBlocks | pToolNER.py:67-71 | the stripped file text cut on blank lines always yields at least one block, each with at least one line |
| Corpus.SentenceBlocksJoin | pToolNER.py:67-71 | re-joining the lines and then the blocks gives back the stripped text, so the sentence cut loses no character |
| Corpus.ParseCoNLL | pToolNER.py:73-85 | one entry per block in each list and one element per line in each entry; each token is the stripped first field of its line and each tag the stripped last field; each combined entry is token + sep + tag |
| Corpus.LoadCorpusInCoNLLFormat | pToolNER.py:57-91 | `onlyOneColumnTokens` loads nothing and returns nothing; an empty separator is reported as an invalid file; otherwise the parsed lists are appended after the lists already held and the plain sentences are untouched |
| Corpus.LoadCorpusInPlainFormat | pToolNER.py:93-103 | the plain sentences are replaced by the lines of the stripped text: at least one line, none holding a `\n`, joined back they give the stripped text; the other lists are untouched |
| Corpus.UniqueLabels | pToolNER.py:18-25 | the collected labels hold no duplicate and no `I-` label, and are exactly the non-`I-` labels of the input |
| Corpus.UniqueLabelsOrder | pToolNER.py:18-25 | the labels appear in the order of their first occurrence |
| Corpus.OrderSnoc | pToolNER.py:21-23 | appending a label keeps the labels already collected in first-occurrence order, and a label not seen before lands after all of them |
| Corpus.GetListLabels | pToolNER.py:18-25 | over the loaded tag lists: duplicate-free, exactly the non-`I-` labels present, in first-occurrence order |
| Filtering.NextTag | pToolNER.py:117-124 | a tag containing `B-` or `I-` assigns `newTag`; a tag with neither leaves the old value; a `B-X` or `I-X` tag assigns itself |
| Filtering.FilterTags | pToolNER.py:116-131 | the inner loop fails only with an unbound `newTag`; on success it gives one output per tag, the mask for every unacceptable category and the tag itself for every acceptable prefixed tag |
| Filtering.FilterTagsCarried | pToolNER.py:116-131 | position by position: the loop succeeds iff no acceptable tag is reached while `newTag` is unbound, and each acceptable tag receives the `newTag` carried to it from the earlier tags |
| Filtering.FilterTagsAppend | pToolNER.py:116-131 | the loop over `a + b` is the loop over `a` followed by the loop over `b` started from the `newTag` that `a` left |
| Filtering.FilterSentences | pToolNER.py:116-131 | the outer loop keeps the sentence shape and masks or keeps each tag as the inner loop does, without resetting `newTag` between sentences |
| Filtering.FilterSentencesFlat | pToolNER.py:116-131 | filtering sentence by sentence is the inner loop over the flattened tag stream: same outcome, same tags in order, same final `newTag` |
| Filtering.FilterCoNLLCorpusByCategories | pToolNER.py:105-156 | the tag lists are filtered and the token+tag entries are rebuilt as token + sep + new tag; unacceptable categories get the mask and acceptable prefixed tags keep themselves; on success the tag lists are exactly the first loop's output; an unbound `newTag` in the first loop fails, and with a non-empty separator every failure is the unbound `newTag`; with an empty separator the call succeeds exactly when the first loop does and there is no token+tag entry to split, leaving the entries as they were, and otherwise fails with the unbound `newTag` or, past the first loop, the empty-separator error; tokens and plain sentences are untouched |
| Filtering.FilterCoNLLStream | pToolNER.py:116-149 | the two loops act as one loop over the stored tags followed by the tags split off the entries: the call succeeds iff that loop does, and every output tag, in the tag lists and in the rebuilt entries, is the decision for its tag given the `newTag` carried from all earlier tags of the stream, the first loop included (so an acceptable unprefixed tag receives the last prefixed tag seen, possibly from the other loop) |
| Filtering.FilterCoNLLLoops | pToolNER.py:116-154 | the call is the first loop over the tag lists, then the second loop over the split-off tags started from the `newTag` the first left; the stored lists are their outputs |
| Filtering.FilterCoNLLSucceeds | pToolNER.py:116-149 | the call succeeds exactly when the single loop over the whole tag stream does |
| Filtering.FilterCoNLLLabels | pToolNER.py:116-131 | on success, with any separator (the empty one included), each filtered tag is the decision for its tag given the `newTag` carried from the tags before it |
| Filtering.FilterCoNLLEntries | pToolNER.py:133-149 | each rebuilt entry is its token, sep and the decision for its tag given the `newTag` carried from all stored tags and the entry tags before it |
| Filtering.StreamAt | pToolNER.py:116-149 | in a loop over a prefix followed by flattened sentences, the output at element `j` of sentence `i` is the decision given the `newTag` carried from everything before it |
| Filtering.CleanSentence | pToolNER.py:163 | one pass yields a trimmed sentence with no double spaces whose words are those of the stripped sentence with the label deleted; for a label absent from the sentence it is the space-normalised stripped sentence |
| Filtering.FilterPlainLoopLast | pToolNER.py:162-163 | after the loop only the label visited last has any effect; an empty loop leaves `newSentence` as it was |
| Filtering.FilterPlainCorpusByCategory | pToolNER.py:158-166 | the call fails (unbound `newSentence`) exactly when every label is acceptable; otherwise it returns one cleaned sentence, with the last unacceptable label in enumeration order removed |
| Output.GenerateOutputFile | pToolNER.py:228-245 | CoNLL renders one entry per line with a blank line after each sentence; plain writes one line per sentence; a list of strings in CoNLL is rendered as sentences of one-character tokens; a list of lists in plain raises once there is a sentence and writes nothing when there is none; any other format leaves the file empty |
| Output.RenderCharactersLength | pToolNER.py:235-239 | strings written in CoNLL format take two characters of output per character plus one per string |
| Output.TerminatedCharacters | pToolNER.py:235-237 | a string written in CoNLL format puts each character on a line of its own: character `i` at position `2i`, a line break after it |
| Output.TerminatedJoin | pToolNER.py:242-245 | for a non-empty list of sentences, the plain output is the sentences joined by line breaks plus one final line break (the empty list is written as `""`) |
| Output.RenderCoNLLJoin | pToolNER.py:235-239 | for a non-empty corpus whose every sentence is non-empty, the CoNLL output is the sentence blocks joined by blank lines plus one closing blank line |
| Output.JoinLinesNoEarlyBlank | pToolNER.py:236-239 | a block of non-empty lines without `\n` or `\r` contains no blank line, and starts and ends with its first and last characters |
| Output.EntrySplit | pToolNER.py:75-77 | an entry built from two fields free of the one-character separator splits back into exactly those two fields |
| Output.BlockBack | pToolNER.py:236-239 | the lines of one written sentence, if there is at least one line and none is empty or holds `\n` or `\r`, contain no blank line and split back into those same lines |
| Output.RenderedBlocks | pToolNER.py:235-239 | for a non-empty corpus of non-empty sentences, a one-character separator other than `\n` or `\r`, and non-empty fields without outer whitespace, `\n`, `\r` or the separator character, the written CoNLL text cuts back into exactly the sentences of entries that were written |
| Output.CoNLLRoundTrip | pToolNER.py:235-239 | the CoNLL loader reads what the CoNLL writer wrote back as the same tokens, tags and entries, for a non-empty corpus of non-empty sentences, a one-character separator other than `\n` or `\r`, and non-empty fields without outer whitespace, `\n`, `\r` or the separator character |
| Output.PlainRoundTrip | pToolNER.py:242-245 | the plain loader reads what the plain writer wrote back line for line, for a non-empty list of lines without `\n` or `\r` whose joined text has no outer whitespace (an empty list is written as the empty text, which loads back as one empty line) |
| Output.PlainLoadThenWrite | pToolNER.py:93-103 | the plain sentences of a load, written back in plain format, are the stripped file text plus a final line break |
| Tagging.AddLabel | pToolNER.py:192-195 | the append-if-absent step keeps the old list as a prefix, adds exactly the new label, and never introduces a duplicate |
| Tagging.AddSpanLabelsSpec | pToolNER.py:189-195 | the known labels stay in place, no label is added twice, and the labels gained are exactly the `<B-X>` and `<I-X>` labels of the spans |
| Tagging.AddSpanLabelsKnown | pToolNER.py:189-195 | spans whose two labels are already present change nothing |
| Tagging.AddSpanLabelsAgain | pToolNER.py:189-195 | processing the same spans a second time adds nothing |
| Tagging.KeepTokens | pToolNER.py:208-211 | every kept token passes the `<B-` / `<I-` / `>` test, a one-token sentence keeps its token exactly when it passes, and the result is never longer than the sentence |
| Tagging.KeepTokensAppend | pToolNER.py:208-211 | the test is applied token by token: filtering a concatenation is filtering each part, so the kept tokens keep their order and their repeats |
| Tagging.KeepTokensMembers | pToolNER.py:208-211 | a token survives exactly when it is in the sentence and passes the `<B-` / `<I-` / `>` test |
| Tagging.KeepTokensIdempotent | pToolNER.py:208-211 | filtering an already filtered sentence changes nothing |
| Tagging.ContainsChar | pToolNER.py:210 | `find(c) != -1` for a one-character string holds exactly when the character occurs |
| Tagging.DropTagTokens | pToolNER.py:208-213 | the rebuilt sentence text is the kept tokens, in order, joined with spaces; it contains no `>`; a sentence whose tokens all pass is simply joined with spaces |
| Tagging.SpanLabelsDropped | pToolNER.py:189-213 | the `<B-X>` and `<I-X>` labels collected for a span never survive the post-mask filter |
| Scenarios.StaleTagCarried | pToolNER.py:116-131 | with tags `B-PER, PER` and `PER` acceptable, the second tag receives the stale `newTag` `B-PER` |
| Scenarios.UnboundFirstTag | pToolNER.py:116-131 | with tag `O` first and `O` acceptable, `newTag` is read before any assignment and the call fails |
| Scenarios.PlainBlankLineKept | pToolNER.py:93-103 | the text `a`, blank line, `b` loads as three sentences, the middle one empty |

## Left out

- File input and output: `open`, `read` and `write` are replaced by string parameters and results. The file-name and encoding arguments, `close`, and failures to open a file are not modelled.
- Newline translation of text-mode files is not modelled. The loaders take the text as Python hands it over after reading, and the writer produces the text before it is written. Reading translates `\r` and `\r\n` into `\n`, so the round-trip lemmas require fields and lines free of both `\n` and `\r` (`Output.LineFree`). Under that condition the translation changes nothing.
- `print` calls and the wording of the exception messages are not modelled. An exception is modelled by its kind only.
- The flair tagger (`SequenceTagger.load`, `predict`, `to_tagged_string`, `get_spans`) is a foreign library and is not modelled. Its outputs arrive as parameters of `Tagging` and `Masking`.
- The rest of `sequenceTaggingOnText` is not modelled: the directory listing, the per-file loop, and the wiring of options through `kwargs`. Only its two pure fragments are modelled (`Tagging`).
- The enumeration order of `set(allPlainLabels) - set(acceptableLabels)` depends on string hashing. `Filtering.FilterPlainCorpusByCategory` takes that order as a parameter (`unacceptableOrder`), required to list the difference without repetition.
- `acceptableLabels` is modelled as a list. A `None` value, which makes `in` raise `TypeError`, is not modelled. A plain string, for which `in` tests for a substring, is not modelled either.
- A `None` value for `specialTokenToMaskNE` is not modelled. The model takes the mask as a string.
- `Output.GenerateOutputFile` takes the sentences either as a list of token lists or as a list of strings. Other element types are not modelled.
- `PyStrings.RemoveAll`: the contract states only the length bound and the no-occurrence case. Contents when the label occurs are given by the function's definition alone.
- `PyStrings.Strip`: the contract states only that the result is trimmed and no longer than the input. That it is the slice with whitespace around it is the separate lemma `PyStrings.StripSlice`.
- Unicode details beyond the `str.isspace` set used by `strip` are not modelled, such as encodings and normalisation.
- Reporting, shuffling and statistics features described for the tool but absent from the class are not modelled.

=== FILE: corpus.dfy ===
/** The corpus lists of `PortugueseToolNER` and the operations that fill and read them:
    the parsing parts of `loadCorpusInCoNLLFormat` and `loadCorpusInPlainFormat`, and
    `__getListLabels`. File contents are passed in as strings. */
module Corpus {
  import opened Seqs
  import opened PyStrings
  import opened Outcomes

  /** The instance lists the loaders and filters read and write. */
  datatype Store = Store(
    sentencesPlain: seq<string>,
    sentencesTokens: seq<seq<string>>,
    sentencesLabels: seq<seq<string>>,
    sentencesTokenAndLabels: seq<seq<string>>)

  /** The lists as `__init__` leaves them. */
  const Initial := Store([], [], [], [])

  /** The stripped content cut into sentence blocks on blank lines, each block cut into lines. */
  function SentenceBlocks(content: string): (r: seq<seq<string>>)
    ensures |r| >= 1
    ensures forall i :: 0 <= i < |r| ==> |r[i]| >= 1
  {
    SplitLines(Split(Strip(content), "\n\n"))
  }

  /** Every block split into its lines. */
  function SplitLines(blocks: seq<string>): (r: seq<seq<string>>)
    ensures |r| == |blocks|
    ensures forall i :: 0 <= i < |r| ==> |r[i]| >= 1
  {
    seq(|blocks|, i requires 0 <= i < |blocks| => Split(blocks[i], "\n"))
  }

  /** Each block's lines joined back with line breaks. */
  function JoinBlocks(blocks: seq<seq<string>>): (r: seq<string>)
    ensures |r| == |blocks|
  {
    seq(|blocks|, i requires 0 <= i < |blocks| => Join(blocks[i], "\n"))
  }

  /** Re-joining the lines and then the blocks gives back the stripped content: the parse
      loses no character. */
  lemma SentenceBlocksJoin(content: string)
    ensures Join(JoinBlocks(SentenceBlocks(content)), "\n\n") == Strip(content)
  {
    JoinSplitLines(Split(Strip(content), "\n\n"));
    JoinSplit(Strip(content), "\n\n");
  }

  lemma JoinSplitLines(blocks: seq<string>)
    ensures JoinBlocks(SplitLines(blocks)) == blocks
  {
    forall i | 0 <= i < |blocks| ensures JoinBlocks(SplitLines(blocks))[i] == blocks[i] {
      JoinSplit(blocks[i], "\n");
    }
  }

  /** `line.split(sep)[0].strip()` */
  function TokenOf(line: string, sep: string): string
    requires sep != ""
  {
    Strip(Split(line, sep)[0])
  }

  /** `line.split(sep)[-1].strip()` */
  function TagOf(line: string, sep: string): string
    requires sep != ""
  {
    Strip(Last(Split(line, sep)))
  }

  /** Two nested lists with the same number of sentences and the same length per sentence. */
  predicate SameShape<A, B>(a: seq<seq<A>>, b: seq<seq<B>>) {
    |a| == |b| && forall i :: 0 <= i < |a| ==> |a[i]| == |b[i]|
  }

  /** The combined `token + sep + tag` entries of a corpus. */
  function Entries(tokens: seq<seq<string>>, tags: seq<seq<string>>, sep: string): (r: seq<seq<string>>)
    requires SameShape(tokens, tags)
    ensures SameShape(r, tokens)
    ensures forall i, j :: 0 <= i < |tokens| && 0 <= j < |tokens[i]| ==> r[i][j] == tokens[i][j] + sep + tags[i][j]
  {
    seq(|tokens|, i requires 0 <= i < |tokens| =>
      seq(|tokens[i]|, j requires 0 <= j < |tokens[i]| => tokens[i][j] + sep + tags[i][j]))
  }

  /** The three per-sentence lists a CoNLL load produces. */
  datatype Columns = Columns(tokens: seq<seq<string>>, tags: seq<seq<string>>, tokenAndTags: seq<seq<string>>)

  /** The stripped tokens of one block, line by line. */
  function BlockTokens(block: seq<string>, sep: string): (r: seq<string>)
    requires sep != ""
    ensures |r| == |block|
    ensures forall j :: 0 <= j < |block| ==> r[j] == TokenOf(block[j], sep) && Trimmed(r[j])
  {
    seq(|block|, j requires 0 <= j < |block| => TokenOf(block[j], sep))
  }

  /** The stripped tags of one block, line by line. */
  function BlockTags(block: seq<string>, sep: string): (r: seq<string>)
    requires sep != ""
    ensures |r| == |block|
    ensures forall j :: 0 <= j < |block| ==> r[j] == TagOf(block[j], sep) && Trimmed(r[j])
  {
    seq(|block|, j requires 0 <= j < |block| => TagOf(block[j], sep))
  }

  /** The rebuilt `token + sep + tag` entries of one block, line by line. */
  function BlockEntries(block: seq<string>, sep: string): (r: seq<string>)
    requires sep != ""
    ensures |r| == |block|
    ensures forall j :: 0 <= j < |block| ==> r[j] == BlockTokens(block, sep)[j] + sep + BlockTags(block, sep)[j]
  {
    seq(|block|, j requires 0 <= j < |block| => TokenOf(block[j], sep) + sep + TagOf(block[j], sep))
  }

  /** One parsed block per sentence block, for each of the three lists. */
  function MapBlocks(blocks: seq<seq<string>>, sep: string): (c: Columns)
    requires sep != ""
    ensures |c.tokens| == |c.tags| == |c.tokenAndTags| == |blocks|
    ensures forall i :: 0 <= i < |blocks| ==>
      && c.tokens[i] == BlockTokens(blocks[i], sep)
      && c.tags[i] == BlockTags(blocks[i], sep)
      && c.tokenAndTags[i] == BlockEntries(blocks[i], sep)
  {
    Columns(
      seq(|blocks|, i requires 0 <= i < |blocks| => BlockTokens(blocks[i], sep)),
      seq(|blocks|, i requires 0 <= i < |blocks| => BlockTags(blocks[i], sep)),
      seq(|blocks|, i requires 0 <= i < |blocks| => BlockEntries(blocks[i], sep)))
  }

  /** The parsing loop of `loadCorpusInCoNLLFormat`: one entry per block in each list, one
      element per line in each entry; the token is the stripped first field of its line, the
      tag the stripped last field, and the combined entry is rebuilt as token + sep + tag. */
  function ParseCoNLL(content: string, sep: string): (c: Columns)
    requires sep != ""
    ensures |c.tokens| == |c.tags| == |c.tokenAndTags| == |SentenceBlocks(content)|
    ensures forall i :: 0 <= i < |c.tokens| ==>
      |c.tokens[i]| == |c.tags[i]| == |c.tokenAndTags[i]| == |SentenceBlocks(content)[i]|
    ensures forall i, j :: 0 <= i < |c.tokens| && 0 <= j < |c.tokens[i]| ==>
      && c.tokens[i][j] == TokenOf(SentenceBlocks(content)[i][j], sep)
      && c.tags[i][j] == TagOf(SentenceBlocks(content)[i][j], sep)
    ensures forall i, j :: 0 <= i < |c.tokens| && 0 <= j < |c.tokens[i]| ==>
      && c.tokenAndTags[i][j] == c.tokens[i][j] + sep + c.tags[i][j]
      && Trimmed(c.tokens[i][j]) && Trimmed(c.tags[i][j])
  {
    MapBlocksShape(SentenceBlocks(content), sep);
    MapBlocks(SentenceBlocks(content), sep)
  }

  lemma MapBlocksShape(blocks: seq<seq<string>>, sep: string)
    requires sep != ""
    ensures var c := MapBlocks(blocks, sep);
      && (forall i :: 0 <= i < |c.tokens| ==>
            |c.tokens[i]| == |c.tags[i]| == |c.tokenAndTags[i]| == |blocks[i]|)
      && (forall i, j :: 0 <= i < |c.tokens| && 0 <= j < |c.tokens[i]| ==>
            && c.tokens[i][j] == TokenOf(blocks[i][j], sep)
            && c.tags[i][j] == TagOf(blocks[i][j], sep))
      && (forall i, j :: 0 <= i < |c.tokens| && 0 <= j < |c.tokens[i]| ==>
            && c.tokenAndTags[i][j] == c.tokens[i][j] + sep + c.tags[i][j]
            && Trimmed(c.tokens[i][j]) && Trimmed(c.tags[i][j]))
  {
    var c := MapBlocks(blocks, sep);
    forall i, j | 0 <= i < |c.tokens| && 0 <= j < |c.tokens[i]|
      ensures && c.tokens[i][j] == TokenOf(blocks[i][j], sep)
              && c.tags[i][j] == TagOf(blocks[i][j], sep)
              && c.tokenAndTags[i][j] == c.tokens[i][j] + sep + c.tags[i][j]
              && Trimmed(c.tokens[i][j]) && Trimmed(c.tags[i][j])
    {
      assert c.tokens[i] == BlockTokens(blocks[i], sep);
      assert c.tags[i] == BlockTags(blocks[i], sep);
      assert c.tokenAndTags[i] == BlockEntries(blocks[i], sep);
    }
  }

  /** `loadCorpusInCoNLLFormat` after the file read. `Success(None)` is the call with
      `onlyOneColumnTokens` set, which loads nothing and returns nothing; the parsed
      sentences are appended to the lists already held. An empty separator makes
      `split` raise inside the `try`, which the loader reports as an invalid file. */
  function LoadCorpusInCoNLLFormat(st: Store, content: string, onlyOneColumnTokens: bool, sep: string)
    : (r: Result<Option<Store>>)
    ensures onlyOneColumnTokens ==> r == Success(None)
    ensures !onlyOneColumnTokens && sep == "" ==> r == Failure(InvalidFile)
    ensures !onlyOneColumnTokens && sep != "" ==> r.Success? && r.value.Some?
    ensures r.Success? && r.value.Some? ==>
      var st' := r.value.value;
      && st'.sentencesPlain == st.sentencesPlain
      && st.sentencesTokens <= st'.sentencesTokens
      && st.sentencesLabels <= st'.sentencesLabels
      && st.sentencesTokenAndLabels <= st'.sentencesTokenAndLabels
      && st'.sentencesTokens[|st.sentencesTokens|..] == ParseCoNLL(content, sep).tokens
      && st'.sentencesLabels[|st.sentencesLabels|..] == ParseCoNLL(content, sep).tags
      && st'.sentencesTokenAndLabels[|st.sentencesTokenAndLabels|..] == ParseCoNLL(content, sep).tokenAndTags
  {
    if onlyOneColumnTokens then Success(None)
    else if sep == "" then Failure(InvalidFile)
    else
      var c := ParseCoNLL(content, sep);
      Success(Some(st.(sentencesTokens := st.sentencesTokens + c.tokens,
                       sentencesLabels := st.sentencesLabels + c.tags,
                       sentencesTokenAndLabels := st.sentencesTokenAndLabels + c.tokenAndTags)))
  }

  /** `loadCorpusInPlainFormat` after the file read: the stripped content split on line
      breaks replaces the plain sentences; blank lines in between are kept. */
  function LoadCorpusInPlainFormat(st: Store, content: string): (r: Store)
    ensures |r.sentencesPlain| >= 1
    ensures Join(r.sentencesPlain, "\n") == Strip(content)
    ensures forall k, i :: 0 <= k < |r.sentencesPlain| && 0 <= i < |r.sentencesPlain[k]| ==>
      r.sentencesPlain[k][i] != '\n'
    ensures r.(sentencesPlain := st.sentencesPlain) == st
  {
    var sentences := Split(Strip(content), "\n");
    JoinSplit(Strip(content), "\n");
    SplitPiecesAvoid(Strip(content), '\n');
    st.(sentencesPlain := sentences)
  }

  /** The first-occurrence-ordered, duplicate-free list of the labels that contain no `I-`,
      built the way the nested loop of `__getListLabels` builds it. */
  function UniqueLabels(labels: seq<string>): (r: seq<string>)
    ensures NoDuplicates(r)
    ensures forall k :: 0 <= k < |r| ==> !Contains(r[k], "I-")
    ensures forall l :: l in r <==> l in labels && !Contains(l, "I-")
    decreases |labels|
  {
    if |labels| == 0 then []
    else
      var p := UniqueLabels(labels[..|labels| - 1]);
      var l := labels[|labels| - 1];
      assert labels == labels[..|labels| - 1] + [l];
      if l !in p && !Contains(l, "I-") then p + [l] else p
  }

  /** Every element of `p` occurs in `s`, and `p` lists them in order of first occurrence. */
  predicate FirstOccurrenceOrder(s: seq<string>, p: seq<string>) {
    && (forall k :: 0 <= k < |p| ==> p[k] in s)
    && forall i, j :: 0 <= i < j < |p| ==> IndexOf(s, p[i]) < IndexOf(s, p[j])
  }

  /** The labels keep the order in which they first occur. */
  lemma {:induction false} UniqueLabelsOrder(labels: seq<string>)
    ensures FirstOccurrenceOrder(labels, UniqueLabels(labels))
    decreases |labels|
  {
    if |labels| > 0 {
      var init := labels[..|labels| - 1];
      var l := labels[|labels| - 1];
      assert labels == init + [l];
      UniqueLabelsOrder(init);
      var p := UniqueLabels(init);
      OrderSnoc(init, l, p);
    }
  }

  /** Appending to the scanned list keeps the order of what was already collected, and a new
      label collected at the end comes after all of it. */
  lemma OrderSnoc(init: seq<string>, l: string, p: seq<string>)
    requires FirstOccurrenceOrder(init, p)
    ensures FirstOccurrenceOrder(init + [l], p)
    ensures l !in init ==> FirstOccurrenceOrder(init + [l], p + [l])
  {
    var s := init + [l];
    forall x | x in init ensures x in s && IndexOf(s, x) == IndexOf(init, x) < |init| {
      IndexOfSnoc(init, l, x);
    }
    forall k | 0 <= k < |p| ensures p[k] in init {
    }
    if l !in init {
      assert IndexOf(s, l) == |init|;
      var q := p + [l];
      forall i, j | 0 <= i < j < |q| ensures IndexOf(s, q[i]) < IndexOf(s, q[j]) {
        assert q[i] == p[i];
        if j < |p| {
          assert q[j] == p[j];
        }
      }
    }
  }

  /** `__getListLabels`: the unique non-`I-` labels of the loaded tag lists. */
  function GetListLabels(st: Store): (r: seq<string>)
    ensures NoDuplicates(r)
    ensures forall l :: l in r <==> l in Concat(st.sentencesLabels) && !Contains(l, "I-")
    ensures FirstOccurrenceOrder(Concat(st.sentencesLabels), r)
  {
    UniqueLabelsOrder(Concat(st.sentencesLabels));
    UniqueLabels(Concat(st.sentencesLabels))
  }
}

=== FILE: filtering.dfy ===
/** Category filtering: `filterCoNLLCorpusByCategories` over the loaded tag lists and
    `filterPlainCorpusByCategory` over one tagged plain sentence. */
module Filtering {
  import opened Seqs
  import opened PyStrings
  import opened Outcomes
  import opened Corpus

  /** The category of a tag: `B-` removed if present, then `I-` removed if present. */
  function Category(tag: string): string {
    var t := if Contains(tag, "B-") then RemoveAll(tag, "B-") else tag;
    if Contains(t, "I-") then RemoveAll(t, "I-") else t
  }

  /** The usual prefixed shapes (`B-X`, `I-X`): exactly one of the two prefix tests rewrites
      `newTag`, and it rewrites it to the tag itself. */
  predicate IsPrefixed(tag: string) {
    if Contains(tag, "B-") then !Contains(RemoveAll(tag, "B-"), "I-") else Contains(tag, "I-")
  }

  /** The value of the loop variable `newTag` after the two prefix tests on `tag`; `None`
      stands for a name never assigned. A tag with neither prefix leaves it as it was. */
  function NextTag(tag: string, newTag: Option<string>): (r: Option<string>)
    ensures Contains(tag, "B-") || Contains(tag, "I-") ==> r.Some?
    ensures !Contains(tag, "B-") && !Contains(tag, "I-") ==> r == newTag
    ensures IsPrefixed(tag) ==> r == Some(tag)
  {
    var t := if Contains(tag, "B-") then RemoveAll(tag, "B-") else tag;
    if Contains(t, "I-") then Some(t)
    else if Contains(tag, "B-") then Some(tag)
    else newTag
  }

  /** What one iteration appends: `newTag` for an acceptable category (`None` when it was
      never assigned, the source's UnboundLocalError), the mask otherwise. */
  function Decide(tag: string, newTag: Option<string>, acceptableLabels: seq<string>, mask: string)
    : Option<string>
  {
    if Category(tag) in acceptableLabels then NextTag(tag, newTag) else Some(mask)
  }

  /** A filtered list together with the `newTag` left for the iterations that follow. */
  datatype Filtered<T> = Filtered(out: T, newTag: Option<string>)

  /** The inner loop over one sentence's tags, threading `newTag`. */
  function FilterTags(tags: seq<string>, acceptableLabels: seq<string>, mask: string, newTag: Option<string>)
    : (r: Result<Filtered<seq<string>>>)
    ensures r.Failure? ==> r.error == Unbound
    ensures r.Success? ==> |r.value.out| == |tags|
    ensures r.Success? ==> forall i :: 0 <= i < |tags| && Category(tags[i]) !in acceptableLabels ==>
      r.value.out[i] == mask
    ensures r.Success? ==> forall i :: 0 <= i < |tags| && Category(tags[i]) in acceptableLabels && IsPrefixed(tags[i]) ==>
      r.value.out[i] == tags[i]
    decreases |tags|
  {
    if |tags| == 0 then Success(Filtered([], newTag))
    else
      match Decide(tags[0], newTag, acceptableLabels, mask)
      case None => Failure(Unbound)
      case Some(t) =>
        match FilterTags(tags[1..], acceptableLabels, mask, NextTag(tags[0], newTag))
        case Failure(e) => Failure(e)
        case Success(f) => Success(Filtered([t] + f.out, f.newTag))
  }

  /** `newTag` after the loop has seen `tags`. */
  function Carried(tags: seq<string>, newTag: Option<string>): Option<string>
    decreases |tags|
  {
    if |tags| == 0 then newTag else Carried(tags[1..], NextTag(tags[0], newTag))
  }

  /** Position by position: the loop succeeds exactly when no acceptable tag is reached while
      `newTag` is still unassigned, and each acceptable tag receives the `newTag` carried to
      it, which is the most recent prefixed tag; the last one carries over. */
  lemma {:induction false} FilterTagsCarried(tags: seq<string>, acceptableLabels: seq<string>, mask: string, newTag: Option<string>)
    ensures FilterTags(tags, acceptableLabels, mask, newTag).Success? <==>
      forall i :: 0 <= i < |tags| ==> Decide(tags[i], Carried(tags[..i], newTag), acceptableLabels, mask).Some?
    ensures FilterTags(tags, acceptableLabels, mask, newTag).Success? ==>
      && FilterTags(tags, acceptableLabels, mask, newTag).value.newTag == Carried(tags, newTag)
      && forall i :: 0 <= i < |tags| ==>
           Decide(tags[i], Carried(tags[..i], newTag), acceptableLabels, mask)
             == Some(FilterTags(tags, acceptableLabels, mask, newTag).value.out[i])
    decreases |tags|
  {
    if |tags| > 0 {
      var next := NextTag(tags[0], newTag);
      var rest := tags[1..];
      FilterTagsCarried(rest, acceptableLabels, mask, next);
      assert tags[..0] == [];
      forall i | 1 <= i < |tags| ensures Carried(tags[..i], newTag) == Carried(rest[..i - 1], next) {
        assert tags[..i][1..] == rest[..i - 1];
      }
      if Decide(tags[0], newTag, acceptableLabels, mask).Some? {
        var r := FilterTags(tags, acceptableLabels, mask, newTag);
        var f := FilterTags(rest, acceptableLabels, mask, next);
        if f.Success? {
          forall i | 0 <= i < |tags| ensures
            Decide(tags[i], Carried(tags[..i], newTag), acceptableLabels, mask) == Some(r.value.out[i])
          {
            if i > 0 {
              assert rest[i - 1] == tags[i];
              assert r.value.out[i] == f.value.out[i - 1];
            }
          }
        } else {
          var i :| 0 <= i < |rest| && Decide(rest[i], Carried(rest[..i], next), acceptableLabels, mask).None?;
          assert tags[i + 1] == rest[i];
        }
      }
    }
  }

  /** The outer loop over the sentences: `newTag` is never reset between sentences. */
  function FilterSentences(sentences: seq<seq<string>>, acceptableLabels: seq<string>, mask: string, newTag: Option<string>)
    : (r: Result<Filtered<seq<seq<string>>>>)
    ensures r.Failure? ==> r.error == Unbound
    ensures r.Success? ==> SameShape(r.value.out, sentences)
    ensures r.Success? ==> forall i, j :: 0 <= i < |sentences| && 0 <= j < |sentences[i]| ==>
      && (Category(sentences[i][j]) !in acceptableLabels ==> r.value.out[i][j] == mask)
      && (Category(sentences[i][j]) in acceptableLabels && IsPrefixed(sentences[i][j]) ==>
            r.value.out[i][j] == sentences[i][j])
    decreases |sentences|
  {
    if |sentences| == 0 then Success(Filtered([], newTag))
    else
      match FilterTags(sentences[0], acceptableLabels, mask, newTag)
      case Failure(e) => Failure(e)
      case Success(f) =>
        match FilterSentences(sentences[1..], acceptableLabels, mask, f.newTag)
        case Failure(e) => Failure(e)
        case Success(g) => Success(Filtered([f.out] + g.out, g.newTag))
  }

  /** Filtering sentence by sentence is filtering the flattened tag stream: the same outcome,
      the same tags in the same order, and the same `newTag` at the end. */
  lemma {:induction false} FilterSentencesFlat(sentences: seq<seq<string>>, acceptableLabels: seq<string>, mask: string, newTag: Option<string>)
    ensures FilterSentences(sentences, acceptableLabels, mask, newTag).Success?
      == FilterTags(Concat(sentences), acceptableLabels, mask, newTag).Success?
    ensures FilterSentences(sentences, acceptableLabels, mask, newTag).Success? ==>
      && Concat(FilterSentences(sentences, acceptableLabels, mask, newTag).value.out)
           == FilterTags(Concat(sentences), acceptableLabels, mask, newTag).value.out
      && FilterSentences(sentences, acceptableLabels, mask, newTag).value.newTag
           == FilterTags(Concat(sentences), acceptableLabels, mask, newTag).value.newTag
    decreases |sentences|
  {
    if |sentences| > 0 {
      FilterTagsAppend(sentences[0], Concat(sentences[1..]), acceptableLabels, mask, newTag);
      var f := FilterTags(sentences[0], acceptableLabels, mask, newTag);
      if f.Success? {
        FilterSentencesFlat(sentences[1..], acceptableLabels, mask, f.value.newTag);
        var r := FilterSentences(sentences, acceptableLabels, mask, newTag);
        if r.Success? {
          var g := FilterSentences(sentences[1..], acceptableLabels, mask, f.value.newTag);
          assert r.value.out == [f.value.out] + g.value.out;
          assert ([f.value.out] + g.value.out)[1..] == g.value.out;
        }
      }
    }
  }

  /** Running the inner loop over `a + b` is running it over `a`, then over `b` with the
      `newTag` that `a` left. */
  lemma {:induction false} FilterTagsAppend(a: seq<string>, b: seq<string>, acceptableLabels: seq<string>, mask: string, newTag: Option<string>)
    ensures FilterTags(a + b, acceptableLabels, mask, newTag) ==
      match FilterTags(a, acceptableLabels, mask, newTag)
      case Failure(e) => Failure(e)
      case Success(f) =>
        match FilterTags(b, acceptableLabels, mask, f.newTag)
        case Failure(e) => Failure(e)
        case Success(g) => Success(Filtered(f.out + g.out, g.newTag))
    decreases |a|
  {
    if |a| == 0 {
      assert a + b == b;
      var g := FilterTags(b, acceptableLabels, mask, newTag);
      if g.Success? {
        assert [] + g.value.out == g.value.out;
      }
    } else {
      assert (a + b)[0] == a[0];
      assert (a + b)[1..] == a[1..] + b;
      FilterTagsAppend(a[1..], b, acceptableLabels, mask, NextTag(a[0], newTag));
      match Decide(a[0], newTag, acceptableLabels, mask)
      case None =>
      case Some(t) =>
        var f := FilterTags(a[1..], acceptableLabels, mask, NextTag(a[0], newTag));
        if f.Success? {
          var g := FilterTags(b, acceptableLabels, mask, f.value.newTag);
          if g.Success? {
            assert [t] + (f.value.out + g.value.out) == ([t] + f.value.out) + g.value.out;
          }
        }
    }
  }

  /** `tokenTag.split(sep)[0]` */
  function TokenPart(entry: string, sep: string): string
    requires sep != ""
  {
    Split(entry, sep)[0]
  }

  /** `tokenTag.split(sep)[-1]` */
  function TagPart(entry: string, sep: string): string
    requires sep != ""
  {
    Last(Split(entry, sep))
  }

  function TokenParts(entries: seq<seq<string>>, sep: string): (r: seq<seq<string>>)
    requires sep != ""
    ensures SameShape(r, entries)
  {
    seq(|entries|, i requires 0 <= i < |entries| =>
      seq(|entries[i]|, j requires 0 <= j < |entries[i]| => TokenPart(entries[i][j], sep)))
  }

  function TagParts(entries: seq<seq<string>>, sep: string): (r: seq<seq<string>>)
    requires sep != ""
    ensures SameShape(r, entries)
  {
    seq(|entries|, i requires 0 <= i < |entries| =>
      seq(|entries[i]|, j requires 0 <= j < |entries[i]| => TagPart(entries[i][j], sep)))
  }

  /** `filterCoNLLCorpusByCategories`: the tag lists and the token+tag lists are filtered by
      two loops that share one `newTag`; both replace the stored lists. The empty separator
      makes `split` raise as soon as one entry is split. */
  function FilterCoNLLCorpusByCategories(st: Store, acceptableLabels: seq<string>, mask: string, sep: string)
    : (r: Result<Store>)
    ensures r.Success? ==> r.value.sentencesPlain == st.sentencesPlain && r.value.sentencesTokens == st.sentencesTokens
    ensures r.Success? ==> SameShape(r.value.sentencesLabels, st.sentencesLabels)
    ensures r.Success? ==> SameShape(r.value.sentencesTokenAndLabels, st.sentencesTokenAndLabels)
    ensures r.Success? ==> forall i, j :: 0 <= i < |st.sentencesLabels| && 0 <= j < |st.sentencesLabels[i]| ==>
      && (Category(st.sentencesLabels[i][j]) !in acceptableLabels ==> r.value.sentencesLabels[i][j] == mask)
      && (Category(st.sentencesLabels[i][j]) in acceptableLabels && IsPrefixed(st.sentencesLabels[i][j]) ==>
            r.value.sentencesLabels[i][j] == st.sentencesLabels[i][j])
    ensures r.Success? && sep != "" ==> forall i, j ::
      0 <= i < |st.sentencesTokenAndLabels| && 0 <= j < |st.sentencesTokenAndLabels[i]| ==>
      var entry := st.sentencesTokenAndLabels[i][j];
      var tag := TagPart(entry, sep);
      && TokenPart(entry, sep) + sep <= r.value.sentencesTokenAndLabels[i][j]
      && (Category(tag) !in acceptableLabels ==>
            r.value.sentencesTokenAndLabels[i][j] == TokenPart(entry, sep) + sep + mask)
      && (Category(tag) in acceptableLabels && IsPrefixed(tag) ==>
            r.value.sentencesTokenAndLabels[i][j] == TokenPart(entry, sep) + sep + tag)
    ensures sep == "" && |Concat(st.sentencesTokenAndLabels)| > 0 ==> r.Failure?
    ensures FilterSentences(st.sentencesLabels, acceptableLabels, mask, None).Failure? ==> r == Failure(Unbound)
    ensures r.Failure? && sep != "" ==> r.error == Unbound
    ensures var first := FilterSentences(st.sentencesLabels, acceptableLabels, mask, None);
      r.Success? ==> first.Success? && r.value.sentencesLabels == first.value.out
    ensures var first := FilterSentences(st.sentencesLabels, acceptableLabels, mask, None);
      sep == "" ==> (r.Success? <==> first.Success? && |Concat(st.sentencesTokenAndLabels)| == 0)
    ensures var first := FilterSentences(st.sentencesLabels, acceptableLabels, mask, None);
      sep == "" && first.Success? && |Concat(st.sentencesTokenAndLabels)| > 0 ==> r == Failure(EmptySeparator)
    ensures sep == "" && r.Success? ==> r.value.sentencesTokenAndLabels == st.sentencesTokenAndLabels
  {
    match FilterSentences(st.sentencesLabels, acceptableLabels, mask, None)
    case Failure(e) => Failure(e)
    case Success(labels) =>
      if sep == "" then
        if |Concat(st.sentencesTokenAndLabels)| > 0 then Failure(EmptySeparator)
        else Success(st.(sentencesLabels := labels.out))
      else
        var tokens := TokenParts(st.sentencesTokenAndLabels, sep);
        var tags := TagParts(st.sentencesTokenAndLabels, sep);
        match FilterSentences(tags, acceptableLabels, mask, labels.newTag)
        case Failure(e) => Failure(e)
        case Success(pairs) =>
          Success(st.(sentencesLabels := labels.out,
                      sentencesTokenAndLabels := Entries(tokens, pairs.out, sep)))
  }

  /** The two loops of `filterCoNLLCorpusByCategories` are one loop over a single stream of
      tags: the stored tag lists, then the tags split off the stored entries. The call
      succeeds exactly when that loop does, and every output tag, in the tag lists and in the
      rebuilt entries alike, is what the loop decides for its tag given the `newTag` carried
      from everything before it in the stream, the end of the first loop included. */
  lemma FilterCoNLLStream(st: Store, acceptableLabels: seq<string>, mask: string, sep: string)
    requires sep != ""
    ensures FilterCoNLLCorpusByCategories(st, acceptableLabels, mask, sep).Success? <==>
      FilterTags(Concat(st.sentencesLabels) + Concat(TagParts(st.sentencesTokenAndLabels, sep)),
                 acceptableLabels, mask, None).Success?
    ensures FilterCoNLLCorpusByCategories(st, acceptableLabels, mask, sep).Success? ==>
      forall i, j :: 0 <= i < |st.sentencesLabels| && 0 <= j < |st.sentencesLabels[i]| ==>
        Decide(st.sentencesLabels[i][j],
               Carried(Concat(st.sentencesLabels[..i]) + st.sentencesLabels[i][..j], None),
               acceptableLabels, mask)
          == Some(FilterCoNLLCorpusByCategories(st, acceptableLabels, mask, sep).value.sentencesLabels[i][j])
    ensures FilterCoNLLCorpusByCategories(st, acceptableLabels, mask, sep).Success? ==>
      var tags := TagParts(st.sentencesTokenAndLabels, sep);
      forall i, j :: 0 <= i < |tags| && 0 <= j < |tags[i]| ==>
        var d := Decide(tags[i][j], Carried(Concat(st.sentencesLabels) + Concat(tags[..i]) + tags[i][..j], None),
                        acceptableLabels, mask);
        && d.Some?
        && FilterCoNLLCorpusByCategories(st, acceptableLabels, mask, sep).value.sentencesTokenAndLabels[i][j]
             == TokenPart(st.sentencesTokenAndLabels[i][j], sep) + sep + d.value
  {
    var r := FilterCoNLLCorpusByCategories(st, acceptableLabels, mask, sep);
    FilterCoNLLSucceeds(st, acceptableLabels, mask, sep);
    if r.Success? {
      FilterCoNLLLabels(st, acceptableLabels, mask, sep);
      FilterCoNLLEntries(st, acceptableLabels, mask, sep);
    }
  }

  /** The call unfolded into its two loops: the second starts from the `newTag` the first
      left, the first gives the tag lists, the second the tags of the rebuilt entries. */
  lemma FilterCoNLLLoops(st: Store, acceptableLabels: seq<string>, mask: string, sep: string)
    requires sep != ""
    ensures var first := FilterSentences(st.sentencesLabels, acceptableLabels, mask, None);
      && (FilterCoNLLCorpusByCategories(st, acceptableLabels, mask, sep).Success? <==>
            first.Success? &&
            FilterSentences(TagParts(st.sentencesTokenAndLabels, sep), acceptableLabels, mask, first.value.newTag).Success?)
    ensures var r := FilterCoNLLCorpusByCategories(st, acceptableLabels, mask, sep);
      var first := FilterSentences(st.sentencesLabels, acceptableLabels, mask, None);
      r.Success? ==>
        var second := FilterSentences(TagParts(st.sentencesTokenAndLabels, sep), acceptableLabels, mask, first.value.newTag);
        && r.value.sentencesLabels == first.value.out
        && forall i, j :: 0 <= i < |st.sentencesTokenAndLabels| && 0 <= j < |st.sentencesTokenAndLabels[i]| ==>
             r.value.sentencesTokenAndLabels[i][j]
               == TokenPart(st.sentencesTokenAndLabels[i][j], sep) + sep + second.value.out[i][j]
  {
  }

  lemma FilterCoNLLSucceeds(st: Store, acceptableLabels: seq<string>, mask: string, sep: string)
    requires sep != ""
    ensures FilterCoNLLCorpusByCategories(st, acceptableLabels, mask, sep).Success? <==>
      FilterTags(Concat(st.sentencesLabels) + Concat(TagParts(st.sentencesTokenAndLabels, sep)),
                 acceptableLabels, mask, None).Success?
  {
    var labelTags := st.sentencesLabels;
    var tags := TagParts(st.sentencesTokenAndLabels, sep);
    FilterCoNLLLoops(st, acceptableLabels, mask, sep);
    FilterSentencesFlat(labelTags, acceptableLabels, mask, None);
    FilterTagsAppend(Concat(labelTags), Concat(tags), acceptableLabels, mask, None);
    var first := FilterSentences(labelTags, acceptableLabels, mask, None);
    if first.Success? {
      FilterSentencesFlat(tags, acceptableLabels, mask, first.value.newTag);
    }
  }

  /** On success, with any separator, each filtered tag is the decision for its tag given
      the `newTag` carried from the tags before it. */
  lemma FilterCoNLLLabels(st: Store, acceptableLabels: seq<string>, mask: string, sep: string)
    requires FilterCoNLLCorpusByCategories(st, acceptableLabels, mask, sep).Success?
    ensures forall i, j :: 0 <= i < |st.sentencesLabels| && 0 <= j < |st.sentencesLabels[i]| ==>
      Decide(st.sentencesLabels[i][j],
             Carried(Concat(st.sentencesLabels[..i]) + st.sentencesLabels[i][..j], None),
             acceptableLabels, mask)
        == Some(FilterCoNLLCorpusByCategories(st, acceptableLabels, mask, sep).value.sentencesLabels[i][j])
  {
    var labelTags := st.sentencesLabels;
    var out := FilterCoNLLCorpusByCategories(st, acceptableLabels, mask, sep).value.sentencesLabels;
    FilterSentencesFlat(labelTags, acceptableLabels, mask, None);
    assert [] + Concat(labelTags) == Concat(labelTags);
    assert [] + Concat(out) == Concat(out);
    forall i, j | 0 <= i < |labelTags| && 0 <= j < |labelTags[i]|
      ensures Decide(labelTags[i][j], Carried(Concat(labelTags[..i]) + labelTags[i][..j], None), acceptableLabels, mask)
        == Some(out[i][j])
    {
      StreamAt([], labelTags, [], out, acceptableLabels, mask, i, j);
      assert [] + Concat(labelTags[..i]) == Concat(labelTags[..i]);
    }
  }

  lemma FilterCoNLLEntries(st: Store, acceptableLabels: seq<string>, mask: string, sep: string)
    requires sep != ""
    requires FilterCoNLLCorpusByCategories(st, acceptableLabels, mask, sep).Success?
    ensures var tags := TagParts(st.sentencesTokenAndLabels, sep);
      forall i, j :: 0 <= i < |tags| && 0 <= j < |tags[i]| ==>
        var d := Decide(tags[i][j], Carried(Concat(st.sentencesLabels) + Concat(tags[..i]) + tags[i][..j], None),
                        acceptableLabels, mask);
        && d.Some?
        && FilterCoNLLCorpusByCategories(st, acceptableLabels, mask, sep).value.sentencesTokenAndLabels[i][j]
             == TokenPart(st.sentencesTokenAndLabels[i][j], sep) + sep + d.value
  {
    var labelTags := st.sentencesLabels;
    var tags := TagParts(st.sentencesTokenAndLabels, sep);
    FilterCoNLLLoops(st, acceptableLabels, mask, sep);
    var first := FilterSentences(labelTags, acceptableLabels, mask, None);
    var second := FilterSentences(tags, acceptableLabels, mask, first.value.newTag);
    FilterSentencesFlat(labelTags, acceptableLabels, mask, None);
    FilterSentencesFlat(tags, acceptableLabels, mask, first.value.newTag);
    FilterTagsAppend(Concat(labelTags), Concat(tags), acceptableLabels, mask, None);
    assert |Concat(first.value.out)| == |Concat(labelTags)| by {
      ConcatLength(first.value.out, labelTags);
    }
    forall i, j | 0 <= i < |tags| && 0 <= j < |tags[i]|
      ensures Decide(tags[i][j], Carried(Concat(labelTags) + Concat(tags[..i]) + tags[i][..j], None), acceptableLabels, mask)
        == Some(second.value.out[i][j])
    {
      StreamAt(Concat(labelTags), tags, Concat(first.value.out), second.value.out, acceptableLabels, mask, i, j);
    }
  }

  /** The decision the single-stream loop takes at element `j` of part `i`, read off the
      output parts that have the shape of the stream's parts. */
  lemma StreamAt(prefix: seq<string>, parts: seq<seq<string>>, outPrefix: seq<string>, outs: seq<seq<string>>,
                 acceptableLabels: seq<string>, mask: string, i: int, j: int)
    requires FilteredTo(prefix + Concat(parts), outPrefix + Concat(outs), acceptableLabels, mask)
    requires Aligned(prefix, parts, outPrefix, outs)
    requires 0 <= i < |parts| && 0 <= j < |parts[i]|
    ensures Decide(parts[i][j], Carried(prefix + Concat(parts[..i]) + parts[i][..j], None), acceptableLabels, mask)
      == Some(outs[i][j])
  {
    StreamPosition(prefix, parts, i, j);
    OutputPosition(prefix, parts, outPrefix, outs, i, j);
    FilteredAt(prefix + Concat(parts), outPrefix + Concat(outs), acceptableLabels, mask, |prefix| + |Concat(parts[..i])| + j);
  }

  /** Output parts laid out like the input parts: a prefix of the same length, then parts of
      pairwise equal lengths. */
  predicate Aligned(prefix: seq<string>, parts: seq<seq<string>>, outPrefix: seq<string>, outs: seq<seq<string>>) {
    && |outPrefix| == |prefix|
    && |outs| == |parts| && forall k :: 0 <= k < |parts| ==> |outs[k]| == |parts[k]|
  }

  /** The loop over `tags`, started with no `newTag`, succeeds and outputs `out`. */
  predicate FilteredTo(tags: seq<string>, out: seq<string>, acceptableLabels: seq<string>, mask: string) {
    FilterTags(tags, acceptableLabels, mask, None).Success? && FilterTags(tags, acceptableLabels, mask, None).value.out == out
  }

  /** `s` holds `x` at position `k`, after exactly `before`. */
  ghost predicate Located<T>(s: seq<T>, k: int, x: T, before: seq<T>) {
    0 <= k < |s| && s[k] == x && s[..k] == before
  }

  /** The output at position `k` is the decision for the tag there given the tags before it. */
  ghost predicate DecidedAt(tags: seq<string>, out: seq<string>, acceptableLabels: seq<string>, mask: string, k: int) {
    0 <= k < |tags| && k < |out| && Decide(tags[k], Carried(tags[..k], None), acceptableLabels, mask) == Some(out[k])
  }

  /** `FilterTagsCarried` read at one position. */
  lemma FilteredAt(tags: seq<string>, out: seq<string>, acceptableLabels: seq<string>, mask: string, k: int)
    requires FilteredTo(tags, out, acceptableLabels, mask)
    requires 0 <= k < |tags|
    ensures DecidedAt(tags, out, acceptableLabels, mask, k)
  {
    FilterTagsCarried(tags, acceptableLabels, mask, None);
  }

  /** Output parts shaped like the stream's parts put the output for element `j` of part `i`
      at the stream position of that element. */
  lemma OutputPosition(prefix: seq<string>, parts: seq<seq<string>>, outPrefix: seq<string>, outs: seq<seq<string>>,
                       i: int, j: int)
    requires Aligned(prefix, parts, outPrefix, outs)
    requires 0 <= i < |parts| && 0 <= j < |parts[i]|
    ensures Located(outPrefix + Concat(outs), |prefix| + |Concat(parts[..i])| + j, outs[i][j],
                    outPrefix + Concat(outs[..i]) + outs[i][..j])
  {
    StreamPosition(outPrefix, outs, i, j);
    ConcatLength(outs[..i], parts[..i]);
  }

  /** Where element `j` of part `i` stands in `prefix` followed by the flattened parts, and
      what comes before it there. */
  lemma StreamPosition<T>(prefix: seq<T>, parts: seq<seq<T>>, i: int, j: int)
    requires 0 <= i < |parts| && 0 <= j < |parts[i]|
    ensures Located(prefix + Concat(parts), |prefix| + |Concat(parts[..i])| + j, parts[i][j],
                    prefix + Concat(parts[..i]) + parts[i][..j])
  {
    var flat := Concat(parts);
    var m := |Concat(parts[..i])| + j;
    assert m < |flat| && flat[m] == parts[i][j] && flat[..m] == Concat(parts[..i]) + parts[i][..j] by {
      ConcatAt(parts, i, j);
    }
    PrefixSlice(prefix, flat, m);
    AppendAssoc(prefix, Concat(parts[..i]), parts[i][..j]);
  }

  /** One pass of the loop in `filterPlainCorpusByCategory`: every occurrence of `dropped`
      deleted, the ends stripped, runs of spaces collapsed; the words left are those of the
      stripped text with `dropped` deleted, none glued to its neighbour. */
  function CleanSentence(taggedSentence: string, dropped: string): (r: string)
    ensures Trimmed(r)
    ensures NoAdjacent(r, ' ')
    ensures Fields(r) == Fields(Strip(RemoveAll(taggedSentence, dropped)))
    ensures !Contains(taggedSentence, dropped) ==> r == CollapseSpaces(Strip(taggedSentence))
  {
    CollapseSpaces(Strip(RemoveAll(taggedSentence, dropped)))
  }

  /** The loop of `filterPlainCorpusByCategory`: each pass recomputes `newSentence` from the
      original sentence. */
  function FilterPlainLoop(taggedSentence: string, labels: seq<string>, newSentence: Option<string>)
    : Option<string>
    decreases |labels|
  {
    if |labels| == 0 then newSentence
    else FilterPlainLoop(taggedSentence, labels[1..], Some(CleanSentence(taggedSentence, labels[0])))
  }

  /** Only the last label the loop visits has any effect. */
  lemma {:induction false} FilterPlainLoopLast(taggedSentence: string, labels: seq<string>, newSentence: Option<string>)
    ensures |labels| == 0 ==> FilterPlainLoop(taggedSentence, labels, newSentence) == newSentence
    ensures |labels| > 0 ==>
      FilterPlainLoop(taggedSentence, labels, newSentence) == Some(CleanSentence(taggedSentence, labels[|labels| - 1]))
    decreases |labels|
  {
    if |labels| > 0 {
      var rest := labels[1..];
      var next := Some(CleanSentence(taggedSentence, labels[0]));
      assert FilterPlainLoop(taggedSentence, labels, newSentence) == FilterPlainLoop(taggedSentence, rest, next);
      FilterPlainLoopLast(taggedSentence, rest, next);
      if |rest| > 0 {
        assert rest[|rest| - 1] == labels[|labels| - 1];
      }
    }
  }

  /** `filterPlainCorpusByCategory`. `unacceptableOrder` is the order in which Python happens
      to enumerate `set(allPlainLabels) - set(acceptableLabels)`; an empty difference leaves
      `newSentence` unassigned. */
  function FilterPlainCorpusByCategory(taggedSentence: string, allPlainLabels: seq<string>,
                                       acceptableLabels: seq<string>, unacceptableOrder: seq<string>)
    : (r: Result<seq<string>>)
    requires NoDuplicates(unacceptableOrder)
    requires forall l :: l in unacceptableOrder <==> l in allPlainLabels && l !in acceptableLabels
    ensures r.Failure? <==> forall l :: l in allPlainLabels ==> l in acceptableLabels
    ensures r.Failure? ==> r.error == Unbound
    ensures r.Success? ==> |r.value| == 1 && Trimmed(r.value[0]) && NoAdjacent(r.value[0], ' ')
    ensures r.Success? ==>
      r.value == [CleanSentence(taggedSentence, unacceptableOrder[|unacceptableOrder| - 1])]
  {
    FilterPlainLoopLast(taggedSentence, unacceptableOrder, None);
    assert |unacceptableOrder| > 0 ==> unacceptableOrder[0] in allPlainLabels;
    match FilterPlainLoop(taggedSentence, unacceptableOrder, None)
    case None => Failure(Unbound)
    case Some(s) => Success([s])
  }
}

=== FILE: masking.dfy ===
/** Masking of named entities in a tagger's tagged string (`word <TAG> word ...`):
    `__clearRepeatedMask` and `__maskNamedEntityOnSentence`. The mask token
    (`specialTokenToMaskNE`) and the acceptable labels are parameters. */
module Masking {
  import opened Seqs
  import opened PyStrings

  /** `__clearRepeatedMask`, loop for loop: a mask is appended at index 0, or when the
      list built so far does not already end in a mask. The loop computes the recursive
      reference `CollapseRuns`, whose properties are the `CollapseRuns*` lemmas. */
  method ClearRepeatedMask(tokens: seq<string>, mask: string) returns (newList: seq<string>)
    ensures newList == CollapseRuns(tokens, mask)
  {
    newList := [];
    for i := 0 to |tokens|
      invariant newList == CollapseRuns(tokens[..i], mask)
    {
      ghost var prefix := tokens[..i];
      assert tokens[..i + 1] == prefix + [tokens[i]];
      CollapseRunsSnoc(prefix, tokens[i], mask);
      if tokens[i] != mask {
        newList := newList + [tokens[i]];
      } else {
        if i == 0 {
          newList := newList + [mask];
        }
        if newList[|newList| - 1] != mask {
          newList := newList + [mask];
        }
      }
    }
    assert tokens[..|tokens|] == tokens;
  }

  /** The words of a tagged sentence: `taggedSentence.strip().split(' ')`. */
  function Words(taggedSentence: string): seq<string> {
    Split(Strip(taggedSentence), " ")
  }

  /** The loop of `__maskNamedEntityOnSentence` before the clean-up: a word followed by an
      acceptable label becomes the mask, acceptable labels themselves are dropped, every
      other token is copied. */
  function MarkEntities(tokens: seq<string>, labels: seq<string>, mask: string): (r: seq<string>)
    ensures |r| <= |tokens|
    ensures forall k :: 0 <= k < |r| ==> r[k] == mask || r[k] !in labels
    decreases |tokens|
  {
    if |tokens| == 0 then []
    else if |tokens| >= 2 && tokens[1] in labels then [mask] + MarkEntities(tokens[1..], labels, mask)
    else if tokens[0] in labels then MarkEntities(tokens[1..], labels, mask)
    else [tokens[0]] + MarkEntities(tokens[1..], labels, mask)
  }

  /** What one iteration `i` of the source loop appends, read off its index tests. */
  function EmitAt(tokens: seq<string>, i: nat, labels: seq<string>, mask: string): seq<string>
    requires i < |tokens|
  {
    if i + 1 < |tokens| then
      (if tokens[i + 1] !in labels && tokens[i] !in labels then [tokens[i]] else [])
      + (if tokens[i + 1] in labels then [mask] else [])
    else if tokens[i] !in labels then [tokens[i]]
    else []
  }

  /** What every iteration of the source loop appends, in iteration order. */
  function Emits(tokens: seq<string>, labels: seq<string>, mask: string): (r: seq<seq<string>>)
    ensures |r| == |tokens|
    ensures forall i :: 0 <= i < |tokens| ==> r[i] == EmitAt(tokens, i, labels, mask)
  {
    seq(|tokens|, i requires 0 <= i < |tokens| => EmitAt(tokens, i, labels, mask))
  }

  /** The recursive reading agrees with the index loop of the source. */
  lemma {:induction false} MarkEntitiesPerIndex(tokens: seq<string>, labels: seq<string>, mask: string)
    ensures MarkEntities(tokens, labels, mask) == Concat(Emits(tokens, labels, mask))
    decreases |tokens|
  {
    if |tokens| > 0 {
      var all := Emits(tokens, labels, mask);
      assert all[1..] == Emits(tokens[1..], labels, mask) by {
        forall i | 0 <= i < |tokens| - 1 ensures all[1..][i] == EmitAt(tokens[1..], i, labels, mask) {
          EmitShift(tokens, i, labels, mask);
        }
      }
      MarkEntitiesPerIndex(tokens[1..], labels, mask);
      MarkEntitiesHead(tokens, labels, mask);
    }
  }

  /** Iteration `i + 1` over the tokens appends what iteration `i` appends over the tail. */
  lemma EmitShift(tokens: seq<string>, i: nat, labels: seq<string>, mask: string)
    requires i + 1 < |tokens|
    ensures EmitAt(tokens, i + 1, labels, mask) == EmitAt(tokens[1..], i, labels, mask)
  {
    assert tokens[i + 1] == tokens[1..][i];
    assert i + 2 < |tokens| ==> tokens[i + 2] == tokens[1..][i + 1];
  }

  /** The first step of the recursion is iteration 0 of the loop. */
  lemma MarkEntitiesHead(tokens: seq<string>, labels: seq<string>, mask: string)
    requires |tokens| > 0
    ensures MarkEntities(tokens, labels, mask) == EmitAt(tokens, 0, labels, mask) + MarkEntities(tokens[1..], labels, mask)
  {
  }

  /** With no acceptable label among the tokens, marking changes nothing. */
  lemma {:induction false} MarkEntitiesNoLabels(tokens: seq<string>, labels: seq<string>, mask: string)
    requires forall k :: 0 <= k < |tokens| ==> tokens[k] !in labels
    ensures MarkEntities(tokens, labels, mask) == tokens
    decreases |tokens|
  {
    if |tokens| > 0 {
      assert tokens[0] !in labels;
      assert |tokens| >= 2 ==> tokens[1] !in labels;
      MarkEntitiesNoLabels(tokens[1..], labels, mask);
      assert tokens == [tokens[0]] + tokens[1..];
    }
  }

  /** When the sentence itself has no mask token, a mask is produced exactly when some
      word is followed by an acceptable label. */
  lemma {:induction false} MarkEntitiesMask(tokens: seq<string>, labels: seq<string>, mask: string)
    requires mask !in tokens
    ensures mask in MarkEntities(tokens, labels, mask)
      <==> exists i :: 1 <= i < |tokens| && tokens[i] in labels
    decreases |tokens|
  {
    if |tokens| > 0 {
      var rest := tokens[1..];
      MarkEntitiesMask(rest, labels, mask);
      if exists i :: 1 <= i < |rest| && rest[i] in labels {
        var i :| 1 <= i < |rest| && rest[i] in labels;
        assert tokens[i + 1] == rest[i];
      }
      if exists i :: 1 <= i < |tokens| && tokens[i] in labels {
        var i :| 1 <= i < |tokens| && tokens[i] in labels;
        if i > 1 {
          assert rest[i - 1] == tokens[i];
        }
      }
      assert tokens[0] != mask;
    }
  }

  /** Marking followed by collapsing: only the mask or unacceptable words remain, masks never
      touch, a sentence without labels or masks comes back as it was, and (for a sentence
      without the mask token) a mask appears exactly when a word is followed by a label. */
  lemma MarkThenCollapse(tokens: seq<string>, labels: seq<string>, mask: string)
    ensures var r := CollapseRuns(MarkEntities(tokens, labels, mask), mask);
      && (forall k :: 0 <= k < |r| ==> r[k] == mask || r[k] !in labels)
      && NoAdjacent(r, mask)
      && (mask !in tokens && (forall k :: 0 <= k < |tokens| ==> tokens[k] !in labels) ==> r == tokens)
      && (mask !in tokens ==> (mask in r <==> exists i :: 1 <= i < |tokens| && tokens[i] in labels))
  {
    var marked := MarkEntities(tokens, labels, mask);
    var r := CollapseRuns(marked, mask);
    assert forall k :: 0 <= k < |r| ==> r[k] == mask || r[k] !in labels by {
      CollapseRunsSubset(marked, mask);
    }
    CollapseRunsNoAdjacent(marked, mask);
    if mask !in tokens {
      assert mask in r <==> exists i :: 1 <= i < |tokens| && tokens[i] in labels by {
        CollapseRunsMembers(marked, mask, mask);
        MarkEntitiesMask(tokens, labels, mask);
      }
      if forall k :: 0 <= k < |tokens| ==> tokens[k] !in labels {
        MarkEntitiesNoLabels(tokens, labels, mask);
        CollapseRunsKeeps(marked, mask);
      }
    }
  }

  /** The masked sentence read off the source loop index by index: what the iterations
      append, in order, with runs of the mask collapsed; so apart from the masks it holds
      exactly the words the iterations keep. */
  lemma MarkPerIndexCollapsed(tokens: seq<string>, labels: seq<string>, mask: string)
    ensures Without(CollapseRuns(MarkEntities(tokens, labels, mask), mask), mask)
      == Without(Concat(Emits(tokens, labels, mask)), mask)
    ensures CollapseRuns(MarkEntities(tokens, labels, mask), mask)
      == CollapseRuns(Concat(Emits(tokens, labels, mask)), mask)
  {
    MarkEntitiesPerIndex(tokens, labels, mask);
    CollapseRunsWithout(MarkEntities(tokens, labels, mask), mask);
  }

  /** `__maskNamedEntityOnSentence`: mark, then collapse runs of the mask. */
  function MaskNamedEntityOnSentence(taggedSentence: string, acceptableLabels: seq<string>, mask: string)
    : (r: seq<string>)
    ensures forall k :: 0 <= k < |r| ==> r[k] == mask || r[k] !in acceptableLabels
    ensures NoAdjacent(r, mask)
    ensures mask !in Words(taggedSentence)
      && (forall k :: 0 <= k < |Words(taggedSentence)| ==> Words(taggedSentence)[k] !in acceptableLabels)
      ==> r == Words(taggedSentence)
    ensures mask !in Words(taggedSentence) ==>
      (mask in r <==> exists i :: 1 <= i < |Words(taggedSentence)| && Words(taggedSentence)[i] in acceptableLabels)
    ensures Without(r, mask) == Without(Concat(Emits(Words(taggedSentence), acceptableLabels, mask)), mask)
    ensures r == CollapseRuns(Concat(Emits(Words(taggedSentence), acceptableLabels, mask)), mask)
  {
    var tokens := Words(taggedSentence);
    MarkThenCollapse(tokens, acceptableLabels, mask);
    MarkPerIndexCollapsed(tokens, acceptableLabels, mask);
    CollapseRuns(MarkEntities(tokens, acceptableLabels, mask), mask)
  }
}

=== FILE: outcomes.dfy ===
/** Optional values and results of the operations: Python's unbound names and
    raised exceptions become `None` and `Failure` values. */
module Outcomes {

  datatype Option<T> = None | Some(value: T)

  /** The ways an operation of the model can fail. */
  datatype Error =
    | InvalidFile      // the loader's catch-all: any failure inside its `try` block
    | Unbound          // a local variable read before any assignment (UnboundLocalError)
    | EmptySeparator   // `split('')` (ValueError)
    | TypeMismatch     // a list concatenated with a string (TypeError)

  datatype Result<T> = Success(value: T) | Failure(error: Error)
}

=== FILE: output.dfy ===
/** `generateOutputFile` as a pure function from the sentences and the format name to the
    text the file holds when the call returns, and the round trips with the two loaders. */
module Output {
  import opened Seqs
  import opened PyStrings
  import opened Outcomes
  import opened Corpus

  /** Every line written followed by a line break. */
  function Terminated(lines: seq<string>): (r: string)
    ensures |r| == |Concat(lines)| + |lines|
    decreases |lines|
  {
    if |lines| == 0 then "" else lines[0] + "\n" + Terminated(lines[1..])
  }

  /** The CoNLL layout: each sentence's entries one per line, each sentence closed by an
      empty line. */
  function RenderCoNLL(sentences: seq<seq<string>>): string
    decreases |sentences|
  {
    if |sentences| == 0 then "" else Terminated(sentences[0]) + "\n" + RenderCoNLL(sentences[1..])
  }

  /** The `sentences` argument: a list of token lists (what the CoNLL loader and filter
      produce) or a list of strings (what the plain loader and the tagger produce). */
  datatype Sentences = Tabular(rows: seq<seq<string>>) | Plain(lines: seq<string>)

  /** Iterating over a Python string: its characters as one-character strings. */
  function Characters(s: string): (r: seq<string>)
    ensures |r| == |s|
    ensures forall i :: 0 <= i < |s| ==> r[i] == [s[i]]
  {
    seq(|s|, i requires 0 <= i < |s| => [s[i]])
  }

  /** A list of strings seen as sentences whose tokens are single characters. */
  function CharacterRows(lines: seq<string>): (rows: seq<seq<string>>)
    ensures |rows| == |lines|
    ensures forall i :: 0 <= i < |lines| ==> rows[i] == Characters(lines[i])
  {
    seq(|lines|, i requires 0 <= i < |lines| => Characters(lines[i]))
  }

  /** `generateOutputFile`: the contents of the file after the call. The file is opened with
      `w+`, so a format that matches neither branch leaves it empty. In the CoNLL branch a
      list of strings is walked character by character; in the plain branch a list of lists
      fails on `list + str` as soon as there is a first sentence. */
  function GenerateOutputFile(sentences: Sentences, outputFormat: string): (r: Result<string>)
    ensures r.Failure? <==>
      (outputFormat == "Plain" || outputFormat == "plain") && sentences.Tabular? && |sentences.rows| > 0
    ensures r.Failure? ==> r.error == TypeMismatch
    ensures outputFormat !in {"CoNLL", "conll", "Plain", "plain"} ==> r == Success("")
    ensures (outputFormat == "Plain" || outputFormat == "plain") && sentences.Tabular? && |sentences.rows| == 0 ==>
      r == Success("")
    ensures (outputFormat == "CoNLL" || outputFormat == "conll") && sentences.Tabular? ==>
      r == Success(RenderCoNLL(sentences.rows))
    ensures (outputFormat == "CoNLL" || outputFormat == "conll") && sentences.Plain? ==>
      r.Success? && |r.value| == 2 * |Concat(sentences.lines)| + |sentences.lines|
    ensures (outputFormat == "CoNLL" || outputFormat == "conll") && sentences.Plain? ==>
      r == Success(RenderCoNLL(CharacterRows(sentences.lines)))
    ensures (outputFormat == "Plain" || outputFormat == "plain") && sentences.Plain? ==>
      r == Success(Terminated(sentences.lines))
  {
    if outputFormat == "CoNLL" || outputFormat == "conll" then
      match sentences
      case Tabular(rows) => Success(RenderCoNLL(rows))
      case Plain(lines) =>
        RenderCharactersLength(lines);
        Success(RenderCoNLL(CharacterRows(lines)))
    else if outputFormat == "Plain" || outputFormat == "plain" then
      match sentences
      case Tabular(rows) => if |rows| == 0 then Success("") else Failure(TypeMismatch)
      case Plain(lines) => Success(Terminated(lines))
    else Success("")
  }

  /** Writing strings in the CoNLL layout puts every character on a line of its own, with one
      empty line after each string. */
  lemma {:induction false} RenderCharactersLength(lines: seq<string>)
    ensures |RenderCoNLL(CharacterRows(lines))| == 2 * |Concat(lines)| + |lines|
    decreases |lines|
  {
    if |lines| > 0 {
      assert CharacterRows(lines)[1..] == CharacterRows(lines[1..]);
      RenderCharactersLength(lines[1..]);
      CharactersConcat(lines[0]);
    }
  }

  /** The lines written for one string: its characters, each followed by a line break. */
  lemma {:induction false} TerminatedCharacters(s: string)
    ensures |Terminated(Characters(s))| == 2 * |s|
    ensures forall i :: 0 <= i < |s| ==>
      Terminated(Characters(s))[2 * i] == s[i] && Terminated(Characters(s))[2 * i + 1] == '\n'
    decreases |s|
  {
    if |s| > 0 {
      assert Characters(s)[1..] == Characters(s[1..]);
      TerminatedCharacters(s[1..]);
      CharactersConcat(s[1..]);
      var rest := Terminated(Characters(s[1..]));
      var t := Terminated(Characters(s));
      assert t == [s[0]] + "\n" + rest;
      forall i | 1 <= i < |s| ensures t[2 * i] == s[i] && t[2 * i + 1] == '\n' {
        assert t[2 * i] == rest[2 * (i - 1)] && t[2 * i + 1] == rest[2 * (i - 1) + 1];
        assert s[i] == s[1..][i - 1];
      }
    }
  }

  lemma {:induction false} CharactersConcat(s: string)
    ensures |Concat(Characters(s))| == |s|
    decreases |s|
  {
    if |s| > 0 {
      assert Characters(s)[1..] == Characters(s[1..]);
      CharactersConcat(s[1..]);
    }
  }

  /** Line-terminated output is the line-joined text plus one final break. */
  lemma {:induction false} TerminatedJoin(lines: seq<string>)
    requires |lines| > 0
    ensures Terminated(lines) == Join(lines, "\n") + "\n"
    decreases |lines|
  {
    if |lines| > 1 {
      TerminatedJoin(lines[1..]);
    }
  }

  /** The CoNLL layout is the blocks joined by blank lines, closed by one more blank line. */
  lemma {:induction false} RenderCoNLLJoin(sentences: seq<seq<string>>)
    requires |sentences| > 0
    requires forall i :: 0 <= i < |sentences| ==> |sentences[i]| > 0
    ensures RenderCoNLL(sentences) == Join(JoinBlocks(sentences), "\n\n") + "\n\n"
    decreases |sentences|
  {
    TerminatedJoin(sentences[0]);
    var blocks := JoinBlocks(sentences);
    if |sentences| > 1 {
      RenderCoNLLJoin(sentences[1..]);
      assert blocks[1..] == JoinBlocks(sentences[1..]);
    }
  }

  /** Whether `p` holds no line break at all: neither `\n` nor `\r`, which a file opened in
      text mode reads back as a line break too. */
  predicate LineFree(p: string) {
    forall i :: 0 <= i < |p| ==> p[i] != '\n' && p[i] != '\r'
  }

  /** Lines without breaks of their own, joined by single breaks: no blank line arises inside,
      so a search for a blank line never starts inside the block. */
  lemma {:induction false} JoinLinesNoEarlyBlank(lines: seq<string>)
    requires |lines| > 0
    requires forall k :: 0 <= k < |lines| ==> |lines[k]| > 0 && LineFree(lines[k])
    ensures |Join(lines, "\n")| > 0
    ensures Join(lines, "\n")[0] == lines[0][0]
    ensures Join(lines, "\n")[|Join(lines, "\n")| - 1] == lines[|lines| - 1][|lines[|lines| - 1]| - 1]
    ensures NoEarlySep(Join(lines, "\n"), "\n\n")
    decreases |lines|
  {
    var p := Join(lines, "\n");
    if |lines| == 1 {
      forall i | 0 <= i < |p| ensures !("\n\n" <= (p + "\n\n")[i..]) {
        assert (p + "\n\n")[i..][0] == p[i];
        if i + 1 < |p| {
          assert (p + "\n\n")[i..][1] == p[i + 1];
        }
      }
    } else {
      var a := lines[0];
      var q := Join(lines[1..], "\n");
      JoinLinesNoEarlyBlank(lines[1..]);
      assert p == a + "\n" + q;
      forall i | 0 <= i < |p| ensures !("\n\n" <= (p + "\n\n")[i..]) {
        var t := (p + "\n\n")[i..];
        if i < |a| {
          assert t[0] == a[i];
        } else if i == |a| {
          assert t[1] == q[0];
        } else {
          var j := i - |a| - 1;
          assert t == (q + "\n\n")[j..];
        }
      }
    }
  }

  /** No character of the token or the tag is the one-character separator, a line break
      or whitespace at either end. */
  predicate FieldOk(f: string, sep: string) {
    && |f| > 0 && Trimmed(f) && LineFree(f)
    && forall i :: 0 <= i < |f| ==> [f[i]] != sep
  }

  /** A field free of the separator character splits into itself, and an entry built from
      two such fields splits back into them. */
  lemma EntrySplit(token: string, tag: string, sep: string)
    requires |sep| == 1
    requires FieldOk(token, sep) && FieldOk(tag, sep)
    ensures Split(token + sep + tag, sep) == [token, tag]
  {
    assert sep == [sep[0]];
    CharFreeNoEarlySep(token, sep[0]);
    CharFreeNoEarlySep(tag, sep[0]);
    SplitAfter(token, sep, tag);
    SplitWhole(tag, sep);
  }

  /** The corpus a CoNLL load can reproduce exactly: at least one sentence, no empty sentence,
      equal shapes, and every token and tag a proper field. */
  predicate Reloadable(tokens: seq<seq<string>>, tags: seq<seq<string>>, sep: string) {
    && |sep| == 1 && LineFree(sep)
    && SameShape(tokens, tags) && |tokens| > 0
    && (forall i :: 0 <= i < |tokens| ==> |tokens[i]| > 0)
    && (forall i, j :: 0 <= i < |tokens| && 0 <= j < |tokens[i]| ==>
          FieldOk(tokens[i][j], sep) && FieldOk(tags[i][j], sep))
  }

  /** The blocks of the rendered corpus are the sentences of entries that were written. */
  lemma RenderedBlocks(tokens: seq<seq<string>>, tags: seq<seq<string>>, sep: string)
    requires Reloadable(tokens, tags, sep)
    ensures SentenceBlocks(RenderCoNLL(Entries(tokens, tags, sep))) == Entries(tokens, tags, sep)
  {
    var e := Entries(tokens, tags, sep);
    var blocks := JoinBlocks(e);
    var x := Join(blocks, "\n\n");
    EntriesProper(tokens, tags, sep);
    forall i | 0 <= i < |e| ensures NoEarlySep(blocks[i], "\n\n") && Split(blocks[i], "\n") == e[i] {
      BlockBack(e[i]);
    }
    assert RenderCoNLL(e) == x + "\n\n" by {
      RenderCoNLLJoin(e);
    }
    assert Strip(x + "\n\n") == x by {
      BlocksEnds(tokens, tags, sep);
      StripTrailingSpace(x, "\n\n");
    }
    assert Split(x, "\n\n") == blocks by {
      SplitJoin(blocks, "\n\n");
    }
    assert SplitLines(blocks) == e;
  }

  /** Lines that a block can hold: at least one, none empty, none with a break. */
  predicate ProperLines(lines: seq<string>) {
    |lines| > 0 && forall k :: 0 <= k < |lines| ==> |lines[k]| > 0 && LineFree(lines[k])
  }

  /** Every written sentence consists of proper lines. */
  lemma EntriesProper(tokens: seq<seq<string>>, tags: seq<seq<string>>, sep: string)
    requires Reloadable(tokens, tags, sep)
    ensures forall i :: 0 <= i < |tokens| ==> ProperLines(Entries(tokens, tags, sep)[i])
  {
    var e := Entries(tokens, tags, sep);
    forall i, j | 0 <= i < |e| && 0 <= j < |e[i]| ensures |e[i][j]| > 0 && LineFree(e[i][j]) {
      assert FieldOk(tokens[i][j], sep) && FieldOk(tags[i][j], sep);
      assert e[i][j] == tokens[i][j] + sep + tags[i][j];
    }
  }

  /** A block of proper lines holds no blank line and splits back into its lines. */
  lemma BlockBack(lines: seq<string>)
    requires ProperLines(lines)
    ensures NoEarlySep(Join(lines, "\n"), "\n\n")
    ensures Split(Join(lines, "\n"), "\n") == lines
  {
    JoinLinesNoEarlyBlank(lines);
    SplitJoinLines(lines);
  }

  /** The rendered text starts with the first token and ends with the last tag. */
  lemma BlocksEnds(tokens: seq<seq<string>>, tags: seq<seq<string>>, sep: string)
    requires Reloadable(tokens, tags, sep)
    ensures Trimmed(Join(JoinBlocks(Entries(tokens, tags, sep)), "\n\n"))
  {
    var e := Entries(tokens, tags, sep);
    var blocks := JoinBlocks(e);
    EntriesProper(tokens, tags, sep);
    forall i | 0 <= i < |e| ensures |blocks[i]| > 0
      && blocks[i][0] == e[i][0][0]
      && blocks[i][|blocks[i]| - 1] == e[i][|e[i]| - 1][|e[i][|e[i]| - 1]| - 1]
    {
      JoinLinesNoEarlyBlank(e[i]);
    }
    JoinEnds(blocks, "\n\n");
    var n := |e| - 1;
    var m := |e[n]| - 1;
    assert e[0][0] == tokens[0][0] + sep + tags[0][0];
    assert e[n][m] == tokens[n][m] + sep + tags[n][m];
  }

  /** A join of non-empty parts starts where the first part starts and ends where the last
      part ends. */
  lemma {:induction false} JoinEnds(parts: seq<string>, sep: string)
    requires |parts| > 0
    requires forall k :: 0 <= k < |parts| ==> |parts[k]| > 0
    ensures |Join(parts, sep)| > 0
    ensures Join(parts, sep)[0] == parts[0][0]
    ensures Join(parts, sep)[|Join(parts, sep)| - 1] == parts[|parts| - 1][|parts[|parts| - 1]| - 1]
    decreases |parts|
  {
    if |parts| > 1 {
      JoinEnds(parts[1..], sep);
    }
  }

  /** What `generateOutputFile` writes in the CoNLL format, `loadCorpusInCoNLLFormat` reads
      back as the same tokens, tags and entries, provided the fields survive `strip` and
      `split`. */
  lemma CoNLLRoundTrip(tokens: seq<seq<string>>, tags: seq<seq<string>>, sep: string)
    requires Reloadable(tokens, tags, sep)
    ensures GenerateOutputFile(Tabular(Entries(tokens, tags, sep)), "CoNLL").Success?
    ensures ParseCoNLL(GenerateOutputFile(Tabular(Entries(tokens, tags, sep)), "CoNLL").value, sep)
      == Columns(tokens, tags, Entries(tokens, tags, sep))
  {
    var e := Entries(tokens, tags, sep);
    assert GenerateOutputFile(Tabular(e), "CoNLL") == Success(RenderCoNLL(e));
    Reparsed(tokens, tags, sep);
  }

  /** The rendered corpus parses back into its columns. */
  lemma Reparsed(tokens: seq<seq<string>>, tags: seq<seq<string>>, sep: string)
    requires Reloadable(tokens, tags, sep)
    ensures ParseCoNLL(RenderCoNLL(Entries(tokens, tags, sep)), sep) == Columns(tokens, tags, Entries(tokens, tags, sep))
  {
    var e := Entries(tokens, tags, sep);
    assert ParseCoNLL(RenderCoNLL(e), sep) == MapBlocks(e, sep) by {
      RenderedBlocks(tokens, tags, sep);
    }
    ReparsedColumns(tokens, tags, sep);
  }

  /** Parsing the written blocks gives back the three columns. */
  lemma ReparsedColumns(tokens: seq<seq<string>>, tags: seq<seq<string>>, sep: string)
    requires Reloadable(tokens, tags, sep)
    ensures MapBlocks(Entries(tokens, tags, sep), sep) == Columns(tokens, tags, Entries(tokens, tags, sep))
  {
    var e := Entries(tokens, tags, sep);
    var c := MapBlocks(e, sep);
    forall i | 0 <= i < |tokens|
      ensures c.tokens[i] == tokens[i] && c.tags[i] == tags[i] && c.tokenAndTags[i] == e[i]
    {
      ReparsedRow(tokens, tags, sep, i);
    }
  }

  lemma ReparsedRow(tokens: seq<seq<string>>, tags: seq<seq<string>>, sep: string, i: int)
    requires Reloadable(tokens, tags, sep)
    requires 0 <= i < |tokens|
    ensures BlockTokens(Entries(tokens, tags, sep)[i], sep) == tokens[i]
    ensures BlockTags(Entries(tokens, tags, sep)[i], sep) == tags[i]
    ensures BlockEntries(Entries(tokens, tags, sep)[i], sep) == Entries(tokens, tags, sep)[i]
  {
    forall j | 0 <= j < |tokens[i]| ensures FieldOk(tokens[i][j], sep) && FieldOk(tags[i][j], sep) {
    }
    ReparseBlock(Entries(tokens, tags, sep)[i], tokens[i], tags[i], sep);
  }

  /** One written sentence block parses back into its tokens, its tags and its entries. */
  lemma ReparseBlock(block: seq<string>, tokens: seq<string>, tags: seq<string>, sep: string)
    requires |sep| == 1
    requires |block| == |tokens| == |tags|
    requires forall j :: 0 <= j < |block| ==>
      && block[j] == tokens[j] + sep + tags[j]
      && FieldOk(tokens[j], sep) && FieldOk(tags[j], sep)
    ensures BlockTokens(block, sep) == tokens
    ensures BlockTags(block, sep) == tags
    ensures BlockEntries(block, sep) == block
  {
    forall j | 0 <= j < |block|
      ensures TokenOf(block[j], sep) == tokens[j] && TagOf(block[j], sep) == tags[j]
    {
      ReparseEntry(tokens[j], tags[j], sep);
    }
  }

  /** The token and the tag of an entry built from two proper fields are read back as they
      were. */
  lemma ReparseEntry(token: string, tag: string, sep: string)
    requires |sep| == 1
    requires FieldOk(token, sep) && FieldOk(tag, sep)
    ensures TokenOf(token + sep + tag, sep) == token
    ensures TagOf(token + sep + tag, sep) == tag
  {
    EntrySplit(token, tag, sep);
    StripTrimmed(token);
    StripTrimmed(tag);
  }

  /** What `generateOutputFile` writes in the plain format, `loadCorpusInPlainFormat` reads
      back line for line, provided no line holds a break and the text has no whitespace at
      either end. */
  lemma PlainRoundTrip(st: Store, lines: seq<string>)
    requires |lines| > 0
    requires forall k :: 0 <= k < |lines| ==> LineFree(lines[k])
    requires Trimmed(Join(lines, "\n"))
    ensures GenerateOutputFile(Plain(lines), "plain").Success?
    ensures LoadCorpusInPlainFormat(st, GenerateOutputFile(Plain(lines), "plain").value).sentencesPlain == lines
  {
    var x := Join(lines, "\n");
    TerminatedJoin(lines);
    assert GenerateOutputFile(Plain(lines), "plain") == Success(x + "\n");
    PlainReread(lines);
  }

  lemma PlainReread(lines: seq<string>)
    requires |lines| > 0
    requires forall k :: 0 <= k < |lines| ==> LineFree(lines[k])
    requires Trimmed(Join(lines, "\n"))
    ensures Split(Strip(Join(lines, "\n") + "\n"), "\n") == lines
  {
    StripTrailingSpace(Join(lines, "\n"), "\n");
    SplitJoinLines(lines);
  }

  /** Lines without breaks, joined by breaks, split back into the same lines. */
  lemma SplitJoinLines(lines: seq<string>)
    requires |lines| > 0
    requires forall k :: 0 <= k < |lines| ==> LineFree(lines[k])
    ensures Split(Join(lines, "\n"), "\n") == lines
  {
    forall k | 0 <= k < |lines| ensures NoEarlySep(lines[k], "\n") {
      CharFreeNoEarlySep(lines[k], '\n');
    }
    SplitJoin(lines, "\n");
  }

  /** The other way round: the plain sentences a load produced, written out in the plain
      format, are the stripped file text with a final line break. */
  lemma PlainLoadThenWrite(st: Store, content: string)
    ensures GenerateOutputFile(Plain(LoadCorpusInPlainFormat(st, content).sentencesPlain), "Plain")
      == Success(Strip(content) + "\n")
  {
    TerminatedJoin(LoadCorpusInPlainFormat(st, content).sentencesPlain);
  }
}

=== FILE: pystrings.dfy ===
/** The Python `str` operations the corpus code is built from, over `seq<char>`:
    `strip()`, `split(sep)`, `sep.join(parts)`, `find(sub) != -1`,
    `replace(old, '')` and `re.sub(' +', ' ', s)`. */
module PyStrings {
  import opened Seqs

  /** Python's `str.isspace()` for one character: the characters `strip()` removes. */
  predicate IsSpace(c: char) {
    || ('\t' <= c <= '\r')
    || ('\U{1C}' <= c <= ' ')
    || c == '\U{85}' || c == '\U{A0}' || c == '\U{1680}'
    || ('\U{2000}' <= c <= '\U{200A}')
    || c == '\U{2028}' || c == '\U{2029}' || c == '\U{202F}' || c == '\U{205F}' || c == '\U{3000}'
  }

  /** Neither end of `s` is whitespace. */
  predicate Trimmed(s: string) {
    |s| == 0 || (!IsSpace(s[0]) && !IsSpace(s[|s| - 1]))
  }

  /** `s.rstrip()`: the longest prefix that does not end in whitespace. */
  function StripEnd(s: string): (r: string)
    ensures r <= s
    ensures |r| == 0 || !IsSpace(r[|r| - 1])
    ensures forall i :: |r| <= i < |s| ==> IsSpace(s[i])
    decreases |s|
  {
    if |s| > 0 && IsSpace(s[|s| - 1]) then StripEnd(s[..|s| - 1]) else s
  }

  /** `s.lstrip()`: the longest suffix that does not start with whitespace. */
  function StripStart(s: string): (r: string)
    ensures |r| <= |s| && r == s[|s| - |r|..]
    ensures |r| == 0 || !IsSpace(r[0])
    ensures forall i :: 0 <= i < |s| - |r| ==> IsSpace(s[i])
    decreases |s|
  {
    if |s| > 0 && IsSpace(s[0]) then StripStart(s[1..]) else s
  }

  /** `r` is the slice of `s` at offset `k`, with only whitespace outside it. */
  predicate TrimmedAt(s: string, r: string, k: int) {
    && 0 <= k <= |s| - |r| && r == s[k..k + |r|]
    && (forall i :: 0 <= i < k ==> IsSpace(s[i]))
    && (forall i :: k + |r| <= i < |s| ==> IsSpace(s[i]))
  }

  /** `s.strip()`: both ends trimmed. */
  function Strip(s: string): (r: string)
    ensures Trimmed(r)
    ensures |r| <= |s|
  {
    StripStart(StripEnd(s))
  }

  /** What `strip()` keeps is one slice of `s`, and everything it cuts off is whitespace. */
  lemma StripSlice(s: string)
    ensures exists k :: TrimmedAt(s, Strip(s), k)
  {
    var e := StripEnd(s);
    var r := StripStart(e);
    var k := |e| - |r|;
    assert Strip(s) == r;
    StripEndSlice(s, e, r, k);
  }

  lemma StripEndSlice(s: string, e: string, r: string, k: int)
    requires e <= s && (forall i :: |e| <= i < |s| ==> IsSpace(s[i]))
    requires |r| <= |e| && r == e[|e| - |r|..] && (forall i :: 0 <= i < |e| - |r| ==> IsSpace(e[i]))
    requires k == |e| - |r|
    ensures TrimmedAt(s, r, k)
  {
    assert e == s[..|e|];
    assert r == s[k..k + |r|];
    forall i | 0 <= i < k ensures IsSpace(s[i]) {
      assert s[i] == e[i];
    }
  }

  lemma StripTrimmed(s: string)
    requires Trimmed(s)
    ensures Strip(s) == s
  {
  }

  /** Whitespace added after a trimmed string is exactly what `strip()` takes away. */
  lemma StripTrailingSpace(x: string, w: string)
    requires Trimmed(x)
    requires forall i :: 0 <= i < |w| ==> IsSpace(w[i])
    ensures Strip(x + w) == x
  {
    StripEndSpace(x, w);
  }

  lemma {:induction false} StripEndSpace(x: string, w: string)
    requires |x| == 0 || !IsSpace(x[|x| - 1])
    requires forall i :: 0 <= i < |w| ==> IsSpace(w[i])
    ensures StripEnd(x + w) == x
    decreases |w|
  {
    if |w| == 0 {
      assert x + w == x;
    } else {
      assert (x + w)[..|x + w| - 1] == x + w[..|w| - 1];
      StripEndSpace(x, w[..|w| - 1]);
    }
  }

  /** `sep.join(parts)`. */
  function Join(parts: seq<string>, sep: string): string
    decreases |parts|
  {
    if |parts| == 0 then ""
    else if |parts| == 1 then parts[0]
    else parts[0] + sep + Join(parts[1..], sep)
  }

  /** `s.split(sep)` for a non-empty separator: cut at every occurrence of `sep`,
      scanning left to right and resuming after each match. */
  function Split(s: string, sep: string): (r: seq<string>)
    requires sep != ""
    ensures |r| >= 1
    decreases |s|
  {
    if |s| == 0 then [""]
    else if sep <= s then [""] + Split(s[|sep|..], sep)
    else
      var rest := Split(s[1..], sep);
      [[s[0]] + rest[0]] + rest[1..]
  }

  /** The last element of a non-empty sequence (Python's `xs[-1]`). */
  function Last<T>(xs: seq<T>): T
    requires |xs| > 0
  {
    xs[|xs| - 1]
  }

  /** Joining the pieces of a split with the same separator gives the string back. */
  lemma {:induction false} JoinSplit(s: string, sep: string)
    requires sep != ""
    ensures Join(Split(s, sep), sep) == s
    decreases |s|
  {
    if |s| > 0 {
      if sep <= s {
        JoinSplit(s[|sep|..], sep);
        JoinCons("", Split(s[|sep|..], sep), sep);
        assert s == sep + s[|sep|..];
      } else {
        JoinSplit(s[1..], sep);
        JoinPrepend(s[0], Split(s[1..], sep), sep);
        assert s == [s[0]] + s[1..];
      }
    }
  }

  /** A part put in front of a non-empty list is followed by one separator in the join. */
  lemma JoinCons(a: string, parts: seq<string>, sep: string)
    requires |parts| > 0
    ensures Join([a] + parts, sep) == a + sep + Join(parts, sep)
  {
    assert ([a] + parts)[1..] == parts;
  }

  /** A character put in front of the first part is put in front of the join. */
  lemma JoinPrepend(c: char, parts: seq<string>, sep: string)
    requires |parts| > 0
    ensures Join([[c] + parts[0]] + parts[1..], sep) == [c] + Join(parts, sep)
  {
    var r := [[c] + parts[0]] + parts[1..];
    if |parts| > 1 {
      assert r[1..] == parts[1..];
    }
  }

  /** No occurrence of `sep` starts inside `p`, even one that would run on into a
      following copy of `sep`: `p` is then a piece `split` returns unchanged. */
  predicate NoEarlySep(p: string, sep: string) {
    forall i :: 0 <= i < |p| ==> !(sep <= (p + sep)[i..])
  }

  lemma {:induction false} SplitAfter(a: string, sep: string, b: string)
    requires sep != ""
    requires NoEarlySep(a, sep)
    ensures Split(a + sep + b, sep) == [a] + Split(b, sep)
    decreases |a|
  {
    var s := a + sep + b;
    if |a| == 0 {
      assert s == sep + b;
      assert s[|sep|..] == b;
    } else {
      assert (a + sep)[0..] == a + sep;
      assert !(sep <= s);
      assert NoEarlySep(a[1..], sep) by {
        forall i | 0 <= i < |a[1..]| ensures !(sep <= (a[1..] + sep)[i..]) {
          assert (a[1..] + sep)[i..] == (a + sep)[i + 1..];
        }
      }
      assert s[1..] == a[1..] + sep + b;
      SplitAfter(a[1..], sep, b);
      assert a == [a[0]] + a[1..];
    }
  }

  lemma {:induction false} SplitWhole(a: string, sep: string)
    requires sep != ""
    requires NoEarlySep(a, sep)
    ensures Split(a, sep) == [a]
    decreases |a|
  {
    if |a| > 0 {
      assert !(sep <= (a + sep)[0..]);
      assert |sep| <= |a| ==> (a + sep)[..|sep|] == a[..|sep|];
      assert !(sep <= a);
      assert NoEarlySep(a[1..], sep) by {
        forall i | 0 <= i < |a[1..]| ensures !(sep <= (a[1..] + sep)[i..]) {
          assert (a[1..] + sep)[i..] == (a + sep)[i + 1..];
        }
      }
      SplitWhole(a[1..], sep);
      assert a == [a[0]] + a[1..];
    }
  }

  /** Splitting a join gives the parts back when no separator can be found inside a part. */
  lemma {:induction false} SplitJoin(parts: seq<string>, sep: string)
    requires sep != "" && |parts| > 0
    requires forall k :: 0 <= k < |parts| ==> NoEarlySep(parts[k], sep)
    ensures Split(Join(parts, sep), sep) == parts
    decreases |parts|
  {
    if |parts| == 1 {
      SplitWhole(parts[0], sep);
    } else {
      SplitJoin(parts[1..], sep);
      SplitAfter(parts[0], sep, Join(parts[1..], sep));
      assert parts == [parts[0]] + parts[1..];
    }
  }

  /** A one-character separator never survives inside a piece of the split. */
  lemma {:induction false} SplitPiecesAvoid(s: string, c: char)
    ensures forall k, i :: 0 <= k < |Split(s, [c])| && 0 <= i < |Split(s, [c])[k]| ==> Split(s, [c])[k][i] != c
    decreases |s|
  {
    if |s| > 0 {
      SplitPiecesAvoid(s[|[c]|..], c);
      SplitPiecesAvoid(s[1..], c);
    }
  }

  /** A piece without the separator character meets no early separator. */
  lemma CharFreeNoEarlySep(p: string, c: char)
    requires forall i :: 0 <= i < |p| ==> p[i] != c
    ensures NoEarlySep(p, [c])
  {
    forall i | 0 <= i < |p| ensures !([c] <= (p + [c])[i..]) {
      assert (p + [c])[i..][0] == p[i];
    }
  }

  /** `sub in s`, i.e. `s.find(sub) != -1`. */
  predicate Contains(s: string, sub: string)
    decreases |s|
  {
    sub <= s || (|s| > 0 && Contains(s[1..], sub))
  }

  /** `s.replace(pat, '')`: delete every non-overlapping occurrence of `pat`, scanning
      left to right. Python leaves `s` alone when `pat` is empty. */
  function RemoveAll(s: string, pat: string): (r: string)
    ensures |r| <= |s|
    ensures !Contains(s, pat) ==> r == s
    decreases |s|
  {
    if pat == "" then s
    else if |s| == 0 then ""
    else if pat <= s then RemoveAll(s[|pat|..], pat)
    else [s[0]] + RemoveAll(s[1..], pat)
  }

  /** The space-separated words of `s`, `[w for w in s.split(' ') if w]`: the maximal runs
      of non-space characters, in order. */
  function Fields(s: string): seq<string> {
    FieldsFrom(s, "")
  }

  /** The words of `word + s`, where `word` is a run of non-space characters read so far. */
  function FieldsFrom(s: string, word: string): seq<string>
    decreases |s|
  {
    if |s| == 0 then Field(word)
    else if s[0] == ' ' then Field(word) + FieldsFrom(s[1..], "")
    else FieldsFrom(s[1..], word + [s[0]])
  }

  /** A finished word, if it holds any character. */
  function Field(word: string): seq<string> {
    if word == "" then [] else [word]
  }

  /** `re.sub(' +', ' ', s)`: every run of spaces becomes one space. The words stay the same
      and in order, no two spaces touch, and the text starts and ends as before (a space
      there if and only if there was one). */
  function CollapseSpaces(s: string): (r: string)
    ensures Trimmed(s) ==> Trimmed(r)
    ensures NoAdjacent(r, ' ')
    ensures Without(r, ' ') == Without(s, ' ')
    ensures |r| == 0 <==> |s| == 0
    ensures |s| > 0 ==> r[0] == s[0] && r[|r| - 1] == s[|s| - 1]
    ensures Fields(r) == Fields(s)
  {
    CollapseRunsNoAdjacent(s, ' ');
    CollapseRunsWithout(s, ' ');
    CollapseSpacesFields(s, "");
    CollapseRuns(s, ' ')
  }

  /** Collapsing runs of spaces does not change the words, whatever word was being read. */
  lemma {:induction false} CollapseSpacesFields(s: string, word: string)
    ensures FieldsFrom(CollapseRuns(s, ' '), word) == FieldsFrom(s, word)
    decreases |s|
  {
    if |s| > 1 {
      if s[0] == ' ' && s[1] == ' ' {
        CollapseSpacesFields(s[1..], word);
        assert s[1..][0] == ' ' && s[1..][1..] == s[2..];
        assert FieldsFrom(s[1..], "") == FieldsFrom(s[2..], "");
      } else {
        var c := CollapseRuns(s[1..], ' ');
        var next := if s[0] == ' ' then "" else word + [s[0]];
        CollapseSpacesFields(s[1..], next);
        assert ([s[0]] + c)[0] == s[0] && ([s[0]] + c)[1..] == c;
      }
    }
  }
}

=== FILE: scenarios.dfy ===
/** Worked examples of the model on small inputs, showing edge cases of the loops as the
    code behaves on them. */
module Scenarios {
  import opened Seqs
  import opened PyStrings
  import opened Outcomes
  import opened Corpus
  import opened Filtering

  /** An unprefixed acceptable tag after `B-PER` receives the stale `newTag` `B-PER`. */
  lemma StaleTagCarried()
    ensures FilterTags(["B-PER", "PER"], ["PER"], "O", None) == Success(Filtered(["B-PER", "B-PER"], Some("B-PER")))
  {
    assert Contains("B-PER", "B-");
    assert RemoveAll("B-PER", "B-") == "PER" by {
      assert "B-PER"[2..] == "PER";
      assert "B-"[0] != "PER"[0] && "B-"[0] != "ER"[0];
      assert !("B-" <= "PER") && !("B-" <= "ER") && !("B-" <= "R");
      assert "PER"[1..] == "ER" && "ER"[1..] == "R" && "R"[1..] == "";
      assert RemoveAll("R", "B-") == "R";
      assert RemoveAll("ER", "B-") == "ER";
    }
    assert !Contains("PER", "B-") && !Contains("PER", "I-");
    assert Category("B-PER") == "PER";
    assert NextTag("B-PER", None) == Some("B-PER");
    assert Category("PER") == "PER";
    assert NextTag("PER", Some("B-PER")) == Some("B-PER");
    assert Decide("B-PER", None, ["PER"], "O") == Some("B-PER");
    assert Decide("PER", Some("B-PER"), ["PER"], "O") == Some("B-PER");
    assert ["B-PER"] + [] == ["B-PER"];
    assert ["B-PER", "PER"][1..] == ["PER"];
    assert ["PER"][1..] == [];
    assert FilterTags([], ["PER"], "O", Some("B-PER")) == Success(Filtered([], Some("B-PER")));
    assert FilterTags(["PER"], ["PER"], "O", Some("B-PER")) == Success(Filtered(["B-PER"], Some("B-PER")));
    assert ["B-PER"] + ["B-PER"] == ["B-PER", "B-PER"];
  }

  /** An acceptable tag reached before any prefixed tag leaves `newTag` unbound. */
  lemma UnboundFirstTag()
    ensures FilterTags(["O"], ["O"], "X", None) == Failure(Unbound)
  {
    assert !Contains("O", "B-") && !Contains("O", "I-");
    assert Category("O") == "O";
  }

  /** A blank line inside a plain file is kept as an empty sentence. */
  lemma PlainBlankLineKept()
    ensures LoadCorpusInPlainFormat(Initial, "a\n\nb\n").sentencesPlain == ["a", "", "b"]
  {
    assert Strip("a\n\nb\n") == "a\n\nb" by {
      assert "a\n\nb\n" == "a\n\nb" + "\n";
      StripTrailingSpace("a\n\nb", "\n");
    }
    SplitBlankLine();
  }

  lemma SplitBlankLine()
    ensures Split("a\n\nb", "\n") == ["a", "", "b"]
  {
    assert Split("b", "\n") == ["b"] by {
      CharFreeNoEarlySep("b", '\n');
      SplitWhole("b", "\n");
    }
    assert Split("\nb", "\n") == ["", "b"] by {
      assert "\nb" == "" + "\n" + "b";
      CharFreeNoEarlySep("", '\n');
      SplitAfter("", "\n", "b");
    }
    assert "a\n\nb" == "a" + "\n" + "\nb";
    CharFreeNoEarlySep("a", '\n');
    SplitAfter("a", "\n", "\nb");
  }
}

=== FILE: seqs.dfy ===
/** Generic sequence vocabulary shared by the token-level and the character-level
    parts of the model: flattening, deleting one value, duplicate freedom, and the
    run-collapsing filter that both the mask clean-up and the space normalisation use. */
module Seqs {

  /** Flattening of a sequence of sequences, in order (a nested `for` that appends). */
  function Concat<T>(ss: seq<seq<T>>): seq<T>
    decreases |ss|
  {
    if |ss| == 0 then [] else ss[0] + Concat(ss[1..])
  }

  lemma {:induction false} ConcatAppend<T>(a: seq<seq<T>>, b: seq<seq<T>>)
    ensures Concat(a + b) == Concat(a) + Concat(b)
    decreases |a|
  {
    if |a| == 0 {
      assert a + b == b;
    } else {
      assert (a + b)[1..] == a[1..] + b;
      ConcatAppend(a[1..], b);
    }
  }

  /** Element `j` of part `i` sits in the flattening right after the parts before `i`. */
  lemma ConcatAt<T>(xs: seq<seq<T>>, i: int, j: int)
    requires 0 <= i < |xs| && 0 <= j < |xs[i]|
    ensures |Concat(xs[..i])| + j < |Concat(xs)|
    ensures Concat(xs)[|Concat(xs[..i])| + j] == xs[i][j]
    ensures Concat(xs)[..|Concat(xs[..i])| + j] == Concat(xs[..i]) + xs[i][..j]
  {
    var tail := [xs[i]] + xs[i + 1..];
    assert xs == xs[..i] + tail;
    ConcatAppend(xs[..i], tail);
    assert tail[1..] == xs[i + 1..];
    var a := Concat(xs[..i]);
    assert Concat(xs) == a + (xs[i] + Concat(xs[i + 1..]));
    assert Concat(xs)[..|a| + j] == a + xs[i][..j];
  }

  /** Parts of pairwise equal lengths flatten to equal lengths. */
  lemma {:induction false} ConcatLength<A, B>(a: seq<seq<A>>, b: seq<seq<B>>)
    requires |a| == |b| && forall k :: 0 <= k < |a| ==> |a[k]| == |b[k]|
    ensures |Concat(a)| == |Concat(b)|
    decreases |a|
  {
    if |a| > 0 {
      assert forall k :: 0 <= k < |a[1..]| ==> a[1..][k] == a[k + 1] && b[1..][k] == b[k + 1];
      ConcatLength(a[1..], b[1..]);
    }
  }

  /** Cutting `a + b` just after `a` and `m` elements of `b`. */
  lemma PrefixSlice<T>(a: seq<T>, b: seq<T>, m: int)
    requires 0 <= m <= |b|
    ensures (a + b)[..|a| + m] == a + b[..m]
  {
  }

  /** Concatenation regroups freely. */
  lemma AppendAssoc<T>(a: seq<T>, b: seq<T>, c: seq<T>)
    ensures a + (b + c) == a + b + c
  {
  }

  /** `s` with every copy of `x` deleted, the rest in order. */
  function Without<T(==)>(s: seq<T>, x: T): (r: seq<T>)
    ensures x !in r
    ensures forall i :: 0 <= i < |r| ==> r[i] in s
    ensures forall i :: 0 <= i < |s| && s[i] != x ==> s[i] in r
    ensures |r| <= |s|
    decreases |s|
  {
    if |s| == 0 then []
    else if s[0] == x then Without(s[1..], x)
    else [s[0]] + Without(s[1..], x)
  }

  /** No two neighbouring elements are both `x`. */
  predicate NoAdjacent<T(==)>(s: seq<T>, x: T) {
    forall i :: 0 <= i < |s| - 1 ==> !(s[i] == x && s[i + 1] == x)
  }

  predicate NoDuplicates<T(==)>(s: seq<T>) {
    forall i, j :: 0 <= i < j < |s| ==> s[i] != s[j]
  }

  /** Position of the first occurrence of `x` in `s`. */
  function IndexOf<T(==)>(s: seq<T>, x: T): (k: nat)
    requires x in s
    ensures k < |s| && s[k] == x
    ensures forall j :: 0 <= j < k ==> s[j] != x
    decreases |s|
  {
    if s[0] == x then 0 else 1 + IndexOf(s[1..], x)
  }

  lemma {:induction false} IndexOfSnoc<T>(s: seq<T>, y: T, x: T)
    requires x in s
    ensures IndexOf(s + [y], x) == IndexOf(s, x)
    decreases |s|
  {
    if s[0] != x {
      assert (s + [y])[1..] == s[1..] + [y];
      IndexOfSnoc(s[1..], y, x);
    }
  }

  /** Every maximal run of `x` in `s` shrinks to a single `x`; everything else is kept
      in order. Read left to right: an `x` that directly follows an `x` is dropped. */
  function CollapseRuns<T(==)>(s: seq<T>, x: T): (r: seq<T>)
    ensures |r| <= |s|
    ensures |s| > 0 ==> |r| > 0 && r[0] == s[0] && r[|r| - 1] == s[|s| - 1]
    decreases |s|
  {
    if |s| <= 1 then s
    else if s[0] == x && s[1] == x then CollapseRuns(s[1..], x)
    else [s[0]] + CollapseRuns(s[1..], x)
  }

  /** After collapsing, no two neighbours are both `x`. */
  lemma {:induction false} CollapseRunsNoAdjacent<T>(s: seq<T>, x: T)
    ensures NoAdjacent(CollapseRuns(s, x), x)
    decreases |s|
  {
    if |s| > 1 {
      CollapseRunsNoAdjacent(s[1..], x);
      var q := CollapseRuns(s[1..], x);
      if !(s[0] == x && s[1] == x) {
        var r := [s[0]] + q;
        forall i | 0 <= i < |r| - 1 ensures !(r[i] == x && r[i + 1] == x) {
          if i > 0 {
            assert r[i] == q[i - 1] && r[i + 1] == q[i];
          }
        }
      }
    }
  }

  /** Apart from copies of `x`, collapsing keeps every element, in order. */
  lemma {:induction false} CollapseRunsWithout<T>(s: seq<T>, x: T)
    ensures Without(CollapseRuns(s, x), x) == Without(s, x)
    decreases |s|
  {
    if |s| > 1 {
      CollapseRunsWithout(s[1..], x);
      var q := CollapseRuns(s[1..], x);
      if !(s[0] == x && s[1] == x) {
        assert ([s[0]] + q)[1..] == q;
      }
    }
  }

  /** Collapsing neither invents nor loses a value: only repeated copies of `x` go. */
  lemma {:induction false} CollapseRunsMembers<T>(s: seq<T>, x: T, e: T)
    ensures e in CollapseRuns(s, x) <==> e in s
    decreases |s|
  {
    if |s| > 1 {
      CollapseRunsMembers(s[1..], x, e);
      if s[0] == x && s[1] == x {
        assert s[0] == s[1..][0];
      }
      assert s == [s[0]] + s[1..];
    }
  }

  lemma CollapseRunsSubset<T>(s: seq<T>, x: T)
    ensures forall k :: 0 <= k < |CollapseRuns(s, x)| ==> CollapseRuns(s, x)[k] in s
  {
    forall k | 0 <= k < |CollapseRuns(s, x)| ensures CollapseRuns(s, x)[k] in s {
      CollapseRunsMembers(s, x, CollapseRuns(s, x)[k]);
    }
  }

  /** A sequence that already has no adjacent pair of `x` is left alone. */
  lemma {:induction false} CollapseRunsKeeps<T>(s: seq<T>, x: T)
    requires NoAdjacent(s, x)
    ensures CollapseRuns(s, x) == s
    decreases |s|
  {
    if |s| > 1 {
      assert !(s[0] == x && s[1] == x);
      assert NoAdjacent(s[1..], x) by {
        forall i | 0 <= i < |s[1..]| - 1
          ensures !(s[1..][i] == x && s[1..][i + 1] == x)
        {
          assert s[1..][i] == s[i + 1] && s[1..][i + 1] == s[i + 2];
        }
      }
      CollapseRunsKeeps(s[1..], x);
      assert [s[0]] + s[1..] == s;
    }
  }

  lemma CollapseRunsIdempotent<T>(s: seq<T>, x: T)
    ensures CollapseRuns(CollapseRuns(s, x), x) == CollapseRuns(s, x)
  {
    CollapseRunsNoAdjacent(s, x);
    CollapseRunsKeeps(CollapseRuns(s, x), x);
  }

  /** Extending the input by one element, as one iteration of a left-to-right loop does. */
  lemma {:induction false} CollapseRunsSnoc<T>(s: seq<T>, t: T, x: T)
    ensures CollapseRuns(s + [t], x) ==
      var p := CollapseRuns(s, x);
      if t != x then p + [t]
      else if |p| > 0 && p[|p| - 1] == x then p
      else p + [x]
    decreases |s|
  {
    var st := s + [t];
    if |s| == 0 {
      assert st == [t];
    } else if |s| == 1 {
      assert st[1..] == [t];
      assert CollapseRuns(s, x) == s;
    } else {
      assert st[1..] == s[1..] + [t];
      assert st[0] == s[0] && st[1] == s[1];
      CollapseRunsSnoc(s[1..], t, x);
      var q := CollapseRuns(s[1..], x);
      if s[0] == x && s[1] == x {
        assert CollapseRuns(st, x) == CollapseRuns(s[1..] + [t], x);
        assert CollapseRuns(s, x) == q;
      } else {
        assert CollapseRuns(st, x) == [s[0]] + CollapseRuns(s[1..] + [t], x);
        assert CollapseRuns(s, x) == [s[0]] + q;
        assert |q| > 0;
        assert ([s[0]] + q)[|[s[0]] + q| - 1] == q[|q| - 1];
      }
    }
  }
}

=== FILE: tagging.dfy ===
/** Two pure fragments of `sequenceTaggingOnText`: the collection of the angle-bracket
    labels the tagger can produce for the spans it found, and the removal of tag tokens
    from a masked sentence before it is joined back into text. The tagger itself is not
    part of this model; its span tags arrive as a parameter. */
module Tagging {
  import opened Seqs
  import opened PyStrings

  /** The label a tagged string carries at the start of a span of category `tag`. */
  function BTag(tag: string): string {
    "<B-" + tag + ">"
  }

  /** The label a tagged string carries inside a span of category `tag`. */
  function ITag(tag: string): string {
    "<I-" + tag + ">"
  }

  /** Whether `l` is one of the two labels of some span tag in `spanTags`. */
  predicate SpanLabel(l: string, spanTags: seq<string>) {
    exists k :: 0 <= k < |spanTags| && (l == BTag(spanTags[k]) || l == ITag(spanTags[k]))
  }

  /** `if l not in labels: labels.append(l)` */
  function AddLabel(labels: seq<string>, l: string): (r: seq<string>)
    ensures labels <= r
    ensures forall x :: x in r <==> x in labels || x == l
    ensures NoDuplicates(labels) ==> NoDuplicates(r)
  {
    if l in labels then labels else labels + [l]
  }

  /** `allPlainLabels` after the loop over one sentence's spans: for each span its `B` label,
      then its `I` label, each appended when not already present. */
  function AddSpanLabels(allPlainLabels: seq<string>, spanTags: seq<string>): (r: seq<string>)
    decreases |spanTags|
  {
    if |spanTags| == 0 then allPlainLabels
    else AddSpanLabels(AddLabel(AddLabel(allPlainLabels, BTag(spanTags[0])), ITag(spanTags[0])), spanTags[1..])
  }

  /** The labels of the spans are those of the first span and those of the rest. */
  lemma SpanLabelCons(l: string, spanTags: seq<string>)
    requires |spanTags| > 0
    ensures SpanLabel(l, spanTags) <==>
      l == BTag(spanTags[0]) || l == ITag(spanTags[0]) || SpanLabel(l, spanTags[1..])
  {
    if SpanLabel(l, spanTags[1..]) {
      var k :| 0 <= k < |spanTags[1..]| && (l == BTag(spanTags[1..][k]) || l == ITag(spanTags[1..][k]));
      assert spanTags[k + 1] == spanTags[1..][k];
    }
    if SpanLabel(l, spanTags) {
      var k :| 0 <= k < |spanTags| && (l == BTag(spanTags[k]) || l == ITag(spanTags[k]));
      if k > 0 {
        assert spanTags[1..][k - 1] == spanTags[k];
      }
    }
  }

  /** The labels already known stay where they are, no label appears twice, and the labels
      gained are exactly the two labels of every span. */
  lemma {:induction false} AddSpanLabelsSpec(allPlainLabels: seq<string>, spanTags: seq<string>)
    requires NoDuplicates(allPlainLabels)
    ensures allPlainLabels <= AddSpanLabels(allPlainLabels, spanTags)
    ensures NoDuplicates(AddSpanLabels(allPlainLabels, spanTags))
    ensures forall l :: l in AddSpanLabels(allPlainLabels, spanTags) <==>
      l in allPlainLabels || SpanLabel(l, spanTags)
    decreases |spanTags|
  {
    if |spanTags| > 0 {
      var withI := AddLabel(AddLabel(allPlainLabels, BTag(spanTags[0])), ITag(spanTags[0]));
      AddSpanLabelsSpec(withI, spanTags[1..]);
      forall l ensures SpanLabel(l, spanTags) <==>
        l == BTag(spanTags[0]) || l == ITag(spanTags[0]) || SpanLabel(l, spanTags[1..])
      {
        SpanLabelCons(l, spanTags);
      }
    }
  }

  /** A span seen a second time adds nothing. */
  lemma AddSpanLabelsAgain(allPlainLabels: seq<string>, spanTags: seq<string>)
    requires NoDuplicates(allPlainLabels)
    ensures AddSpanLabels(AddSpanLabels(allPlainLabels, spanTags), spanTags)
      == AddSpanLabels(allPlainLabels, spanTags)
  {
    AddSpanLabelsSpec(allPlainLabels, spanTags);
    var once := AddSpanLabels(allPlainLabels, spanTags);
    AddSpanLabelsKnown(once, spanTags);
  }

  /** When both labels of every span are already present, the list is left as it is. */
  lemma {:induction false} AddSpanLabelsKnown(allPlainLabels: seq<string>, spanTags: seq<string>)
    requires forall k :: 0 <= k < |spanTags| ==>
      BTag(spanTags[k]) in allPlainLabels && ITag(spanTags[k]) in allPlainLabels
    ensures AddSpanLabels(allPlainLabels, spanTags) == allPlainLabels
    decreases |spanTags|
  {
    if |spanTags| > 0 {
      assert BTag(spanTags[0]) in allPlainLabels && ITag(spanTags[0]) in allPlainLabels;
      forall k | 0 <= k < |spanTags[1..]|
        ensures BTag(spanTags[1..][k]) in allPlainLabels && ITag(spanTags[1..][k]) in allPlainLabels
      {
        assert spanTags[1..][k] == spanTags[k + 1];
      }
      AddSpanLabelsKnown(allPlainLabels, spanTags[1..]);
    }
  }

  /** The test the source applies to each token of a masked sentence: kept unless it holds
      both `<B-` and `<I-`, or holds a `>`. */
  predicate KeepToken(token: string) {
    (!Contains(token, "<B-") || !Contains(token, "<I-")) && !Contains(token, ">")
  }

  /** The kept tokens of one sentence, in order. */
  function KeepTokens(sentence: seq<string>): (r: seq<string>)
    ensures |r| <= |sentence|
    ensures forall k :: 0 <= k < |r| ==> KeepToken(r[k])
    ensures |sentence| == 1 ==> r == if KeepToken(sentence[0]) then sentence else []
    decreases |sentence|
  {
    if |sentence| == 0 then []
    else if KeepToken(sentence[0]) then [sentence[0]] + KeepTokens(sentence[1..])
    else KeepTokens(sentence[1..])
  }

  /** Exactly the tokens that pass the test survive. */
  lemma {:induction false} KeepTokensMembers(sentence: seq<string>, t: string)
    ensures t in KeepTokens(sentence) <==> t in sentence && KeepToken(t)
    decreases |sentence|
  {
    if |sentence| > 0 {
      KeepTokensMembers(sentence[1..], t);
      assert sentence == [sentence[0]] + sentence[1..];
    }
  }

  /** The filter works token by token: filtering a concatenation filters each part, so the
      kept tokens keep their order and their repeats. */
  lemma {:induction false} KeepTokensAppend(a: seq<string>, b: seq<string>)
    ensures KeepTokens(a + b) == KeepTokens(a) + KeepTokens(b)
    decreases |a|
  {
    if |a| == 0 {
      assert a + b == b;
    } else {
      assert (a + b)[0] == a[0] && (a + b)[1..] == a[1..] + b;
      KeepTokensAppend(a[1..], b);
    }
  }

  /** Filtering a second time removes nothing more. */
  lemma {:induction false} KeepTokensIdempotent(sentence: seq<string>)
    ensures KeepTokens(KeepTokens(sentence)) == KeepTokens(sentence)
    decreases |sentence|
  {
    if |sentence| > 0 {
      KeepTokensIdempotent(sentence[1..]);
      if KeepToken(sentence[0]) {
        assert ([sentence[0]] + KeepTokens(sentence[1..]))[1..] == KeepTokens(sentence[1..]);
      }
    }
  }

  /** A one-character substring is found exactly when the character occurs. */
  lemma {:induction false} ContainsChar(s: string, c: char)
    ensures Contains(s, [c]) <==> exists i :: 0 <= i < |s| && s[i] == c
    decreases |s|
  {
    if |s| > 0 {
      ContainsChar(s[1..], c);
      assert [c] <= s <==> s[0] == c by {
        if s[0] == c {
          assert s[..1] == [c];
        }
      }
      if exists i :: 0 <= i < |s[1..]| && s[1..][i] == c {
        var i :| 0 <= i < |s[1..]| && s[1..][i] == c;
        assert s[i + 1] == c;
      }
      if exists i :: 0 <= i < |s| && s[i] == c {
        var i :| 0 <= i < |s| && s[i] == c;
        if i > 0 {
          assert s[1..][i - 1] == c;
        }
      }
    }
  }

  /** A character found in none of the parts nor in the separator is not in their join. */
  lemma {:induction false} JoinAvoids(parts: seq<string>, sep: string, c: char)
    requires forall k, i :: 0 <= k < |parts| && 0 <= i < |parts[k]| ==> parts[k][i] != c
    requires forall i :: 0 <= i < |sep| ==> sep[i] != c
    ensures forall i :: 0 <= i < |Join(parts, sep)| ==> Join(parts, sep)[i] != c
    decreases |parts|
  {
    if |parts| > 1 {
      JoinAvoids(parts[1..], sep, c);
      var q := Join(parts[1..], sep);
      var j := parts[0] + sep + q;
      forall i | 0 <= i < |j| ensures j[i] != c {
        if i < |parts[0]| {
          assert j[i] == parts[0][i];
        } else if i < |parts[0]| + |sep| {
          assert j[i] == sep[i - |parts[0]|];
        } else {
          assert j[i] == q[i - |parts[0]| - |sep|];
        }
      }
    }
  }

  /** The sentence text the source builds after masking: the kept tokens joined by spaces. */
  function DropTagTokens(sentence: seq<string>): (r: string)
    ensures forall i :: 0 <= i < |r| ==> r[i] != '>'
    ensures (forall k :: 0 <= k < |sentence| ==> KeepToken(sentence[k])) ==> r == Join(sentence, " ")
    ensures r == Join(KeepTokens(sentence), " ")
  {
    var kept := KeepTokens(sentence);
    DropTagTokensFacts(sentence);
    Join(kept, " ")
  }

  lemma DropTagTokensFacts(sentence: seq<string>)
    ensures forall i :: 0 <= i < |Join(KeepTokens(sentence), " ")| ==> Join(KeepTokens(sentence), " ")[i] != '>'
    ensures (forall k :: 0 <= k < |sentence| ==> KeepToken(sentence[k])) ==> KeepTokens(sentence) == sentence
  {
    var kept := KeepTokens(sentence);
    forall k, i | 0 <= k < |kept| && 0 <= i < |kept[k]| ensures kept[k][i] != '>' {
      KeepTokensMembers(sentence, kept[k]);
      ContainsChar(kept[k], '>');
    }
    JoinAvoids(kept, " ", '>');
    if forall k :: 0 <= k < |sentence| ==> KeepToken(sentence[k]) {
      KeepTokensAll(sentence);
    }
  }

  /** A sentence whose tokens all pass the test is kept whole. */
  lemma {:induction false} KeepTokensAll(sentence: seq<string>)
    requires forall k :: 0 <= k < |sentence| ==> KeepToken(sentence[k])
    ensures KeepTokens(sentence) == sentence
    decreases |sentence|
  {
    if |sentence| > 0 {
      assert KeepToken(sentence[0]);
      KeepTokensAll(sentence[1..]);
      assert sentence == [sentence[0]] + sentence[1..];
    }
  }

  /** The labels of a span are dropped from any masked sentence. */
  lemma SpanLabelsDropped(tag: string)
    ensures !KeepToken(BTag(tag)) && !KeepToken(ITag(tag))
  {
    ContainsChar(BTag(tag), '>');
    ContainsChar(ITag(tag), '>');
    assert BTag(tag)[|BTag(tag)| - 1] == '>';
    assert ITag(tag)[|ITag(tag)| - 1] == '>';
  }
}
